=== FILE: README.md ===
# rust-kubelet core, modelled in Dafny

A Dafny model of the deterministic core of a minimal kubelet written in Rust.
The kubelet bootstraps a serving certificate, registers its node, creates a
Lease for that node, and runs a pod on a container runtime. Every call to the
cluster API or to the runtime becomes an input to the model:

- a watch stream is a finite sequence of events plus how the stream ended;
- the runtime and the cluster API are records of total functions from request to reply;
- the current time is an opaque timestamp parameter.

Modules, one per source file:

- `Bootstrap` (`bootstrapping.dfy`) models `src/kubelet/bootstrapping.rs`:
  - the signing-request name `<host>-tls` and the watch filter;
  - the certificate subject and alternative names;
  - the posted request object;
  - the approval loop over watch events, once as a functional fold (`WatchOutcome`) and once as the imperative loop with `certificate` and `got_cert` (`WatchForCertificate`);
  - the files a successful bootstrap writes.
- `Utf8` (`utf8.dfy`) models `std::str::from_utf8`, which the loop applies to the issued certificate bytes, together with the matching encoder.
- `NodeMod` (`node.dfy`) models `src/nodemod/node.rs`: the `Builder`, its defaults, its four mutators, sequences of builder calls, and `build`.
- `PodPipeline` (`pod.dfy`) models `src/provider/pod.rs`: the sandbox and container configurations derived from the pod, and the trace of runtime calls `run_pod` issues.
- `MiniKubelet` (`minikubelet.dfy`) models `src/kubelet/minikubelet.rs`: the node registered at startup, the Lease definition, and the order of the two cluster calls in `Kubelet::start`.
- `Wrappers` (`wrappers.dfy`) holds `Option` and `Result`.

Panics in the source are modelled in two ways:

- An `unwrap` on the caller's data, or an index into it, becomes a precondition. Examples are a watch event without a status, a restart with an empty list, and a pod without a name, spec, container or image.
- An `expect` on a remote reply becomes an explicit outcome: `Aborted` in the pod pipeline and `Panicked` at startup.

The watch precondition `ReadsWellFormed` asks only that the events the loop actually reads be well formed. Events after the stopping one may be anything.

The source hard-codes the host name `my-imac` and the address 192.168.50.251. The naming functions take the host as a parameter, and the constants `Bootstrap.NodeName` and `Bootstrap.NodeIp` give the values the source uses. Startup writes the same name out again, as `MiniKubelet.NodeName`.

Where the code takes shortcuts, the model follows the code:

- The node is created unconditionally; there is no lookup of an existing node. A failed creation panics, including "already exists".
- The lease's owner UID is a literal, not the UID the cluster assigned (see Findings).
- No lease is renewed and no node or pod status is patched. `fetch_status` lists sandboxes and containers once and only logs them.
- The sandbox id returned by the runtime is not checked for emptiness before the container is created (`PodPipeline.EmptySandboxIdPassedOn`).
- The image rewrite appends `:latest` even when the pod's image already has a tag (`PodPipeline.RewriteKeepsExistingTag`).

## Model

| member | source | states |
|---|---|---|
| Bootstrap.CsrNameRoundTrip | src/kubelet/bootstrapping.rs:24 | the request name is the host followed by `-tls`, and the host can be recovered from it, so distinct hosts never share a request name |
| Bootstrap.WatchFilterSelectsCsr | src/kubelet/bootstrapping.rs:46-49 | the watch filter parses as the field `metadata.name` selecting exactly the submitted request's name |
| Bootstrap.NodeCertParams | src/kubelet/bootstrapping.rs:97-108 | the parameters the source requests are organisation `system:nodes`, common name `system:node:my-imac`, and alternative names [DNS `my-imac`, IP 192.168.50.251] |
| Bootstrap.TlsCertSubject | src/kubelet/bootstrapping.rs:97-108 | the subject has organisation `system:nodes` and a common name `system:node:<host>` that reads back as the host; the alternative names are exactly [DNS host, IP address], in that order |
| Bootstrap.CsrDefinitionFor | src/kubelet/bootstrapping.rs:24-42 | the posted request is named after the host (recoverable from its name) and carries the encoded request unchanged |
| Bootstrap.AnyApproved | src/kubelet/bootstrapping.rs:70 | the short-circuiting `any` is true iff some condition's type is exactly `Approved` |
| Bootstrap.ApprovalNeedsBoth | src/kubelet/bootstrapping.rs:68-70 | a status is accepted iff it has a certificate AND a condition of type `Approved`; either alone keeps the loop waiting |
| Bootstrap.Examine | src/kubelet/bootstrapping.rs:68-77 | a status keeps the loop going iff it is not accepted; an accepted one stops it with text iff its bytes are valid UTF-8, that text re-encodes to exactly the certificate bytes, and invalid UTF-8 is the UTF-8 error |
| Bootstrap.StopIndex | src/kubelet/bootstrapping.rs:54-78 | the first event that ends the loop: every event before it keeps the loop going, and the one at it stops it |
| Bootstrap.Handle | src/kubelet/bootstrapping.rs:55-73 | a deletion stops the loop with the "deleted before approval" error and a restart listing several requests with the collision error; any other event keeps the loop going iff its status is not accepted; an accepted event stops the loop, succeeding iff its certificate is valid UTF-8 and failing otherwise with the UTF-8 error; a success carries text that encodes exactly the accepted certificate |
| Bootstrap.WatchOutcome | src/kubelet/bootstrapping.rs:54-83 | the loop's result is decided by the first stopping event alone, or by how the stream ended when none stops it |
| Bootstrap.SkipContinuing | src/kubelet/bootstrapping.rs:68-78 | events that are not accepted leave the loop state unchanged: dropping a prefix of them changes neither well-formedness nor the result |
| Bootstrap.DeletionFails | src/kubelet/bootstrapping.rs:63-65 | a deletion reached after any pending events ends the bootstrap with the "deleted before approval" error, whatever follows |
| Bootstrap.RestartCollisionFails | src/kubelet/bootstrapping.rs:57-60 | a restart listing more than one request, once reached, fails with the collision error, whatever follows |
| Bootstrap.LaterEventsIgnored | src/kubelet/bootstrapping.rs:71-73 | replacing every event after the stopping one, and the stream's ending, leaves the result unchanged |
| Bootstrap.SuccessCharacterization | src/kubelet/bootstrapping.rs:54-78 | the result is the text T iff some event yields T on acceptance and every earlier event kept the loop waiting (both directions) |
| Bootstrap.NeverApprovedCharacterization | src/kubelet/bootstrapping.rs:54-83 | "never approved" iff no event stops the loop and the stream ended cleanly; the watch error iff no event stops it and the next read failed |
| Bootstrap.WatchForCertificate | src/kubelet/bootstrapping.rs:50-83 | the loop with `certificate` and `got_cert` computes exactly the functional fold, and success implies some event stopped the loop |
| Bootstrap.BootstrapTls | src/kubelet/bootstrapping.rs:22-89 | a failed key generation or request serialisation ends the bootstrap before anything is posted; otherwise exactly the request for the host is posted, and a failed creation ends it before any watch; otherwise exactly the host's name filter is watched, a watch error is passed on unchanged, and a watch success makes the bootstrap succeed, writing the watched certificate text to `./mycert.crt` and then the generated key to `./mycert.key`; that text encodes exactly the certificate of the first stopping event |
| Utf8.DecodeFirst | src/kubelet/bootstrapping.rs:71 | one well-formed UTF-8 sequence occupies one to four bytes of the input |
| Utf8.DecodeEncode | src/kubelet/bootstrapping.rs:71 | every text survives encoding then `from_utf8` decoding |
| Utf8.Decode | src/kubelet/bootstrapping.rs:71 | bytes `from_utf8` accepts are exactly the encoding of the text it returns |
| NodeMod.SetName | src/nodemod/node.rs:17-19 | `set_name` replaces the name and nothing else |
| NodeMod.AddAnnotation | src/nodemod/node.rs:20-22 | `add_annotation` maps the key to the value, overwriting, keeps every other key and its value, and changes no other field |
| NodeMod.AddLabel | src/nodemod/node.rs:23-25 | `add_label` inserts or overwrites one label, keeps every other label, and changes no other field |
| NodeMod.AddCapacity | src/nodemod/node.rs:26-31 | `add_capacity` inserts or overwrites one key with the value wrapped unchanged as a quantity, keeps every other key, and changes no other field |
| NodeMod.AnnotationLastWriteWins | src/nodemod/node.rs:20-22 | writing one annotation twice equals writing only the second value |
| NodeMod.AnnotationsCommute | src/nodemod/node.rs:20-22 | annotations under different keys can be added in either order |
| NodeMod.ApplyAllAppend | src/nodemod/node.rs:16-31 | builder calls act in order: one more call acts on the builder the earlier calls left |
| NodeMod.LastWriteWins | src/nodemod/node.rs:20-31 | after any sequence of builder calls, each key of each map holds the value of the last call that wrote it, and keys never written are as before |
| NodeMod.LastNameWins | src/nodemod/node.rs:17-19 | after any sequence of calls the name is the last one set, or the original |
| NodeMod.OtherFieldsUnchanged | src/nodemod/node.rs:16-31 | no sequence of builder calls changes any field other than the name and the three maps |
| NodeMod.Build | src/nodemod/node.rs:33-74 | every builder field reaches the node and can be read back unchanged; fields `build` does not set (uid, namespace, phase, other node-info fields) keep their defaults |
| NodeMod.BuildInjective | src/nodemod/node.rs:33-74 | distinct builders build distinct nodes |
| NodeMod.DefaultNode | src/nodemod/node.rs:97-116 | the default builder builds a node named `krustlet` with pod CIDR `10.244.0.0/24`, kubelet endpoint 10250, kubelet `v1.24.7` on `linux`, and every map and list empty |
| PodPipeline.RewriteImage | src/provider/pod.rs:16-17 | the image reference is `docker.io/library/`, then the pod's image string, then `:latest` |
| PodPipeline.RewriteImageRoundTrip | src/provider/pod.rs:16-17 | the pod's image can be read back from the rewritten reference, so the rewrite loses nothing |
| PodPipeline.RewriteKeepsExistingTag | src/provider/pod.rs:16-17 | for every image `name:tag`, the tag is kept and `:latest` is appended after it |
| PodPipeline.SandboxConfigOf | src/provider/pod.rs:66-82 | the sandbox is named after the pod, with uid `123`, namespace `default`, attempt 0, hostname `my_hostname`, log directory `/var/log/pods/sandbox`, no DNS config or port mappings, and no labels or annotations |
| PodPipeline.ContainerConfigOf | src/provider/pod.rs:14-36 | the container is named after the first container with attempt 0; its image reference reads back as that container's image; its log path is `/var/log/pods/container` |
| PodPipeline.SandboxConfigReadsOnlyName | src/provider/pod.rs:66 | pods with the same name get the same sandbox configuration |
| PodPipeline.ContainerConfigReadsOnlyFirst | src/provider/pod.rs:15-16 | pods with the same first container get the same container configuration; no other entry is read |
| PodPipeline.CreateSandbox | src/provider/pod.rs:65-91 | one `RunPodSandbox` call carrying the derived configuration and an empty runtime handler, whose recorded reply is the runtime's answer to it; success hands on that returned id with the configuration that was sent; failure carries the call's error |
| PodPipeline.CreateContainerIn | src/provider/pod.rs:14-50 | one `CreateContainer` call with the given sandbox id and sandbox configuration and the first container's configuration, whose recorded reply is the runtime's answer; hands on the container id the runtime returned |
| PodPipeline.StartContainerWith | src/provider/pod.rs:53-63 | one `StartContainer` call for exactly the given container id, whose recorded reply is the runtime's answer; fails iff the runtime's answer is a failure |
| PodPipeline.FetchStatus | src/provider/pod.rs:93-110 | an unfiltered sandbox listing, then, only if the runtime answered it with success, an unfiltered container listing; each recorded reply is the runtime's answer |
| PodPipeline.RunPod | src/provider/pod.rs:7-11 | every recorded reply is the runtime's answer to its request; the container is created in the sandbox the runtime returned, with the sandbox configuration that was sent; the container started is the one the runtime created; the calls after the start are exactly the two unfiltered status listings |
| PodPipeline.RunPodOrdered | src/provider/pod.rs:7-12 | calls follow RunPodSandbox, CreateContainer, StartContainer, ListPodSandbox, ListContainers; all but the last succeeded; the run aborts iff its last call failed, with that call's error; it completes only after all five |
| PodPipeline.RunPodRequests | src/provider/pod.rs:8-9 | the first call sends the sandbox configuration derived from the pod; the second sends the first container's configuration |
| PodPipeline.EmptySandboxIdPassedOn | src/provider/pod.rs:84-90 | an empty sandbox id from the runtime is passed on to container creation unchecked |
| PodPipeline.WebPodScenario | src/provider/pod.rs:7-10 | a pod `web` with image `nginx` gives sandbox `web` in `default`, image `docker.io/library/nginx:latest`, and a start of the created container |
| MiniKubelet.StartNodeContents | src/kubelet/minikubelet.rs:21-28 | the registered node is `my-imac` with exactly the ttl and attach-detach annotations, the hostname label and capacity `cpu=4`, and otherwise the builder's defaults |
| MiniKubelet.LeaseSpecDefinition | src/kubelet/minikubelet.rs:73-83 | the lease is held by the node, acquired and renewed at the same given instant, for 300 seconds |
| MiniKubelet.LeaseDefinition | src/kubelet/minikubelet.rs:52-71 | a `coordination.k8s.io/v1` Lease named after the node, whose single owner reference is a `v1` Node with the given name and uid, and whose spec is exactly the node's lease spec for `now` (holder, equal acquire and renew times, 300 s) |
| MiniKubelet.LeaseDefinitionInjective | src/kubelet/minikubelet.rs:52-71 | distinct (uid, name, time) give distinct leases |
| MiniKubelet.CreateLease | src/kubelet/minikubelet.rs:37-50 | one creation in namespace `kube-node-lease` of exactly the lease defined for the given node uid, name and time; the recorded reply is the API's answer to that creation |
| MiniKubelet.Start | src/kubelet/minikubelet.rs:18-34 | the node is created first; the lease call happens iff that creation succeeded; a failed node creation panics with its error; otherwise startup completes |
| MiniKubelet.LeaseAfterNode | src/kubelet/minikubelet.rs:30-32 | every lease call is preceded by a successful node creation |
| MiniKubelet.LeaseFailureSwallowed | src/kubelet/minikubelet.rs:42-49 | once the node exists, startup completes whatever the lease creation answered |
| MiniKubelet.StartIgnoresCreatedUid | src/kubelet/minikubelet.rs:31-32 | as written, the lease's owner uid differs from the uid the cluster assigned whenever that uid is not the literal |
| MiniKubelet.StartWithCreatedUid | src/kubelet/minikubelet.rs:30-32 | corrected startup: node creation first; a panic iff it failed; startup completes iff a lease call was made |
| MiniKubelet.CorrectedLeaseOwnedByCreatedNode | src/kubelet/minikubelet.rs:30-32 | corrected startup creates the lease iff the node was created with a uid, and the lease is owned by exactly that uid |

## Findings

| source | as written | input that shows it | evidently intended | confidence | as-written member | corrected member |
|---|---|---|---|---|---|---|
| src/kubelet/minikubelet.rs:31-32 | the lease's owner reference uses the literal UID `fced67d4-e649-41c3-943a-cc6a43fcdf41` | any node-creation reply whose `metadata.uid` differs from the literal (the cluster assigns a fresh UID to every new node) | the owner UID is the UID of the node just created, so the lease is bound to an existing node | high, not executed | MiniKubelet.StartIgnoresCreatedUid | MiniKubelet.CorrectedLeaseOwnedByCreatedNode |

`MiniKubelet.Start` stays the model of the code as written. `MiniKubelet.StartWithCreatedUid` is the corrected startup.

## Left out

- File writes of the certificate and key: their order, paths and contents are modelled as `FileWrite` values, but write failures are I/O and are not modelled.
- Key generation, PEM serialisation and base64 encoding: these are foreign crypto and library code. `Collaborators.generate` stands for them. The encoded request and the private-key PEM are opaque text it returns. Its failures, and the failure of `serialize_request_pem`, are modelled as the `CertFailed` outcome, but their causes are not.
- The 52-week validity window of the certificate, `Utc::now`, `Instant` and RFC 3339 formatting: these are wall-clock time. The lease timestamp is an opaque parameter.
- `Config::infer`, `Client::try_from` and the transport: these are I/O. Their failures (a panic or an early `?` return) are not modelled.
- serde_json round-tripping of the lease and request objects: the JSON objects are Dafny records directly. The conversion cannot fail for these literal shapes.
- The tonic connection in `get_client` and the `Version` call in `src/provider/mod.rs`: a thin RPC wrapper with printing.
- Logging (`info!`, `error!`) and the logged contents of the sandbox and container listings.
- `src/main.rs`: the pod watch loop only logs events and derives nothing. Tracing setup is I/O.
- tokio spawning and concurrency.
- PodPipeline.ValidPod: the pod's container, spec and image are a precondition of the whole run. In the source, `create_container` reads them only after `RunPodSandbox` has been issued, so a pod without a container or an image panics there and leaves an orphaned sandbox. The model does not describe that partial run.
- Container and sandbox configuration fields the source leaves at `None` (the `linux` and `windows` sections) and the device list: these are always empty or absent.
- Lease renewal, node readiness patching and pod status reconciliation: these do not exist in the modelled source.

=== FILE: bootstrapping.dfy ===
/**
 * The serving-certificate bootstrap of the kubelet: the naming of the
 * certificate signing request, the subject it asks for, and the loop that
 * folds the watch stream of that request into either the issued certificate
 * or one of the bootstrap errors.
 *
 * The watch stream is a finite sequence of events followed by how the stream
 * ended; key generation, PEM/base64 encoding and the cluster calls are opaque.
 */
module Bootstrap {
  import opened Wrappers
  import opened Utf8

  /** The host name the source hard-codes. */
  const NodeName: string := "my-imac"

  /** Condition type that marks a request as approved. */
  const ApprovedType: string := "Approved"

  // ---------------------------------------------------------------------------
  // Naming and subject of the signing request
  // ---------------------------------------------------------------------------

  const TlsSuffix: string := "-tls"
  const NameSelectorField: string := "metadata.name"
  const NodeOrganization: string := "system:nodes"
  const NodeCommonNamePrefix: string := "system:node:"

  /** Name of the signing request submitted for `host`. */
  function CsrName(host: string): string {
    host + TlsSuffix
  }

  /** Field selector that scopes the watch to the one request named after `host`. */
  function WatchFilter(host: string): string {
    NameSelectorField + "=" + CsrName(host)
  }

  /** Splits a `field=value` selector at its first `=`. */
  function ParseFieldSelector(s: string): (r: Option<(string, string)>)
    ensures r.Some? ==> r.value.0 + "=" + r.value.1 == s && '=' !in r.value.0
    ensures r.None? <==> '=' !in s
  {
    if |s| == 0 then None
    else if s[0] == '=' then Some(("", s[1..]))
    else match ParseFieldSelector(s[1..])
      case None => None
      case Some((f, v)) => Some(([s[0]] + f, v))
  }

  /** Recovers the host from a request name, if it has the `-tls` suffix. */
  function HostOfCsrName(name: string): (r: Option<string>)
    ensures r.Some? ==> CsrName(r.value) == name
  {
    if |name| >= |TlsSuffix| && name[|name| - |TlsSuffix|..] == TlsSuffix
    then Some(name[..|name| - |TlsSuffix|])
    else None
  }

  /** The request name identifies its host: distinct hosts never share a request. */
  lemma CsrNameRoundTrip(host: string)
    ensures HostOfCsrName(CsrName(host)) == Some(host)
  {
    assert CsrName(host)[..|host|] == host;
    assert CsrName(host)[|host|..] == TlsSuffix;
  }

  /** The watch filter selects on `metadata.name`, and the value it selects is
      exactly the name of the submitted request. */
  lemma WatchFilterSelectsCsr(host: string)
    ensures ParseFieldSelector(WatchFilter(host)) == Some((NameSelectorField, CsrName(host)))
  {
    var f := WatchFilter(host);
    assert f == NameSelectorField + "=" + CsrName(host);
    assert '=' !in NameSelectorField;
    var r := ParseFieldSelector(f);
    assert r.Some?;
    PrefixBeforeSeparator(r.value.0, r.value.1, NameSelectorField, CsrName(host));
  }

  /** Two `field=value` spellings of the same string agree when neither field has an `=`. */
  lemma {:induction false} PrefixBeforeSeparator(f1: string, v1: string, f2: string, v2: string)
    requires f1 + "=" + v1 == f2 + "=" + v2
    requires '=' !in f1 && '=' !in f2
    ensures f1 == f2 && v1 == v2
  {
    if |f1| == 0 || |f2| == 0 {
      assert (f1 + "=" + v1)[0] == (f2 + "=" + v2)[0];
      if |f1| != |f2| {
        assert false;
      } else {
        assert v1 == (f1 + "=" + v1)[1..];
        assert v2 == (f2 + "=" + v2)[1..];
      }
    } else {
      assert f1[0] == (f1 + "=" + v1)[0] == (f2 + "=" + v2)[0] == f2[0];
      assert (f1 + "=" + v1)[1..] == f1[1..] + "=" + v1;
      assert (f2 + "=" + v2)[1..] == f2[1..] + "=" + v2;
      PrefixBeforeSeparator(f1[1..], v1, f2[1..], v2);
      assert f1 == [f1[0]] + f1[1..];
      assert f2 == [f2[0]] + f2[1..];
    }
  }

  datatype DnType = OrganizationName | CommonName

  datatype SanType = DnsName(dns: string) | IpAddress(ip: Ipv4)

  datatype Ipv4 = Ipv4(a: byte, b: byte, c: byte, d: byte)

  /** The advertised address the source hard-codes. */
  const NodeIp: Ipv4 := Ipv4(192, 168, 50, 251)

  /** The certificate parameters of `gen_tls_cert` that are plain data: the
      distinguished name (attribute type and value, in push order) and the
      subject alternative names. Key pair and validity window are opaque. */
  datatype CertificateParams = CertificateParams(
    distinguishedName: seq<(DnType, string)>,
    subjectAltNames: seq<SanType>)

  function TlsCertParams(host: string, ip: Ipv4): CertificateParams {
    CertificateParams(
      [(OrganizationName, NodeOrganization), (CommonName, NodeCommonNamePrefix + host)],
      [DnsName(host), IpAddress(ip)])
  }

  /** The host a node certificate's common name speaks for. */
  function HostOfCommonName(cn: string): (r: Option<string>)
    ensures r.Some? ==> NodeCommonNamePrefix + r.value == cn
  {
    if |cn| >= |NodeCommonNamePrefix| && cn[..|NodeCommonNamePrefix|] == NodeCommonNamePrefix
    then Some(cn[|NodeCommonNamePrefix|..])
    else None
  }

  /** Value of the first attribute of the given type in a distinguished name. */
  function Attribute(dn: seq<(DnType, string)>, t: DnType): (r: Option<string>)
    ensures r.Some? ==> exists k :: 0 <= k < |dn| && dn[k] == (t, r.value)
    ensures r.None? ==> forall k :: 0 <= k < |dn| ==> dn[k].0 != t
  {
    if |dn| == 0 then None
    else if dn[0].0 == t then Some(dn[0].1)
    else
      var r := Attribute(dn[1..], t);
      assert r.Some? ==> exists k :: 0 <= k < |dn| && dn[k] == (t, r.value) by {
        if r.Some? {
          var k :| 0 <= k < |dn[1..]| && dn[1..][k] == (t, r.value);
          assert dn[k + 1] == (t, r.value);
        }
      }
      r
  }

  /** The requested subject names the node group and the node itself, and the
      alternative names are exactly the host's DNS name and address, in that order. */
  lemma TlsCertSubject(host: string, ip: Ipv4)
    ensures var p := TlsCertParams(host, ip);
      && Attribute(p.distinguishedName, OrganizationName) == Some(NodeOrganization)
      && Attribute(p.distinguishedName, CommonName).Some?
      && HostOfCommonName(Attribute(p.distinguishedName, CommonName).value) == Some(host)
      && |p.subjectAltNames| == 2
      && (forall k :: 0 <= k < |p.subjectAltNames| && p.subjectAltNames[k].DnsName? ==> p.subjectAltNames[k].dns == host)
      && (forall k :: 0 <= k < |p.subjectAltNames| && p.subjectAltNames[k].IpAddress? ==> p.subjectAltNames[k].ip == ip)
      && p.subjectAltNames[0].DnsName? && p.subjectAltNames[1].IpAddress?
  {
    var cn := NodeCommonNamePrefix + host;
    assert cn[..|NodeCommonNamePrefix|] == NodeCommonNamePrefix;
    assert cn[|NodeCommonNamePrefix|..] == host;
  }

  /** The parameters the source actually requests: common name
      `system:node:my-imac`, DNS name `my-imac` and address 192.168.50.251. */
  lemma NodeCertParams()
    ensures TlsCertParams(NodeName, NodeIp) == CertificateParams(
      [(OrganizationName, "system:nodes"), (CommonName, "system:node:my-imac")],
      [DnsName("my-imac"), IpAddress(Ipv4(192, 168, 50, 251))])
  {
    assert NodeCommonNamePrefix + NodeName == "system:node:my-imac";
  }

  /** The signing request object posted to the cluster; `encodedRequest` is the
      base64 of the PEM request, which the model treats as opaque text. */
  datatype CsrDefinition = CsrDefinition(
    apiVersion: string,
    kind: string,
    name: string,
    request: string,
    signerName: string,
    usages: seq<string>)

  function CsrDefinitionFor(host: string, encodedRequest: string): (d: CsrDefinition)
    ensures HostOfCsrName(d.name) == Some(host)
    ensures d.request == encodedRequest
  {
    CsrNameRoundTrip(host);
    CsrDefinition(
      "certificates.k8s.io/v1",
      "CertificateSigningRequest",
      CsrName(host),
      encodedRequest,
      "kubernetes.io/kubelet-serving",
      ["digital signature", "key encipherment", "server auth"])
  }

  // ---------------------------------------------------------------------------
  // Watch events and the approval loop
  // ---------------------------------------------------------------------------

  datatype CsrCondition = CsrCondition(conditionType: string, status: string)

  datatype CsrStatus = CsrStatus(
    certificate: Option<seq<byte>>,
    conditions: Option<seq<CsrCondition>>)

  datatype Csr = Csr(status: Option<CsrStatus>)

  datatype Event = Applied(csr: Csr) | Restarted(csrs: seq<Csr>) | Deleted(csr: Csr)

  /** How the stream behaved after its last delivered event: it ended, or
      reading the next event failed. */
  datatype StreamEnd = Exhausted | ReadFailed

  datatype BootstrapError =
    | DeletedBeforeApproval
    | RestartCollision
    | NeverApproved
    | InvalidUtf8
    | WatchFailed

  /** What handling one event decides: keep waiting, or leave the loop with a result. */
  datatype Verdict = Continue | Stop(result: Result<string, BootstrapError>)

  /** The `any` over the conditions, short-circuiting on the first approval. */
  function AnyApproved(conds: seq<CsrCondition>): (b: bool)
    ensures b <==> exists k :: 0 <= k < |conds| && conds[k].conditionType == ApprovedType
  {
    if |conds| == 0 then false
    else if conds[0].conditionType == ApprovedType then true
    else
      var b := AnyApproved(conds[1..]);
      assert b ==> exists k :: 0 <= k < |conds| && conds[k].conditionType == ApprovedType by {
        if b {
          var k :| 0 <= k < |conds[1..]| && conds[1..][k].conditionType == ApprovedType;
          assert conds[k + 1].conditionType == ApprovedType;
        }
      }
      assert (exists k :: 0 <= k < |conds| && conds[k].conditionType == ApprovedType) ==> b by {
        if exists k :: 0 <= k < |conds| && conds[k].conditionType == ApprovedType {
          var k :| 0 <= k < |conds| && conds[k].conditionType == ApprovedType;
          assert k > 0;
          assert conds[1..][k - 1].conditionType == ApprovedType;
        }
      }
      b
  }

  /** A status the loop accepts: it carries a certificate and an `Approved` condition. */
  predicate IsApproved(st: CsrStatus) {
    st.certificate.Some? && st.conditions.Some? && AnyApproved(st.conditions.value)
  }

  /** Acceptance needs both halves: a certificate without approval, or an
      approval without a certificate, keeps the loop waiting. */
  lemma ApprovalNeedsBoth(st: CsrStatus)
    ensures IsApproved(st) <==>
      && st.certificate.Some?
      && st.conditions.Some?
      && exists k :: 0 <= k < |st.conditions.value| && st.conditions.value[k].conditionType == ApprovedType
  {
  }

  /** The status of an accepted or pending request: approved requests end the
      loop with their certificate as text (or the UTF-8 error). */
  function Examine(st: CsrStatus): (v: Verdict)
    ensures v.Continue? <==> !IsApproved(st)
    ensures v.Stop? ==> (v.result.Success? <==> Decode(st.certificate.value).Some?)
    ensures v.Stop? && v.result.Success? ==> Encode(v.result.value) == st.certificate.value
    ensures v.Stop? && v.result.Failure? ==> v.result.error == InvalidUtf8
  {
    if IsApproved(st) then
      match Decode(st.certificate.value)
      case Some(text) =>
        Stop(Success(text))
      case None => Stop(Failure(InvalidUtf8))
    else Continue
  }

  /** The event can be handled without a panic: an applied object has a status;
      a restart lists at least one object, and if exactly one, it has a status. */
  predicate Readable(e: Event) {
    match e
    case Applied(csr) => csr.status.Some?
    case Restarted(csrs) => |csrs| >= 1 && (|csrs| == 1 ==> csrs[0].status.Some?)
    case Deleted(_) => true
  }

  /** The `match` on one event: a deletion or a restart listing several
      requests stops the loop with its error; otherwise the single status is examined. */
  function Handle(e: Event): (v: Verdict)
    requires Readable(e)
    ensures e.Deleted? ==> v == Stop(Failure(DeletedBeforeApproval))
    ensures e.Restarted? && |e.csrs| > 1 ==> v == Stop(Failure(RestartCollision))
    ensures v.Continue? <==> !e.Deleted? && !(e.Restarted? && |e.csrs| > 1) && !IsApprovedEvent(e)
    ensures IsApprovedEvent(e) ==>
      && v.Stop?
      && (v.result.Success? <==> Decode(ApprovedCertificate(e)).Some?)
      && (v.result.Failure? ==> v.result.error == InvalidUtf8)
    ensures v.Stop? && v.result.Success? ==>
      IsApprovedEvent(e) && Encode(v.result.value) == ApprovedCertificate(e)
  {
    match e
    case Applied(csr) => Examine(csr.status.value)
    case Restarted(csrs) =>
      if |csrs| > 1 then Stop(Failure(RestartCollision)) else Examine(csrs[0].status.value)
    case Deleted(_) => Stop(Failure(DeletedBeforeApproval))
  }

  predicate Continues(e: Event) {
    Readable(e) && Handle(e).Continue?
  }

  predicate Stops(e: Event) {
    Readable(e) && Handle(e).Stop?
  }

  /** Every event the loop reads before it stops can be handled without a panic
      (events after the stopping one are never read and may be anything). */
  predicate ReadsWellFormed(events: seq<Event>)
    decreases |events|
  {
    |events| == 0 || (Readable(events[0]) && (Handle(events[0]).Stop? || ReadsWellFormed(events[1..])))
  }

  function EndResult(end: StreamEnd): Result<string, BootstrapError> {
    match end
    case Exhausted => Failure(NeverApproved)
    case ReadFailed => Failure(WatchFailed)
  }

  /** The result of the approval loop over the whole watch stream: decided by
      the first stopping event alone, or by how the stream ended if none stops it. */
  function WatchOutcome(events: seq<Event>, end: StreamEnd): (r: Result<string, BootstrapError>)
    requires ReadsWellFormed(events)
    ensures var k := StopIndex(events);
      r == if k < |events| then Handle(events[k]).result else EndResult(end)
    decreases |events|
  {
    if |events| == 0 then EndResult(end)
    else match Handle(events[0])
      case Stop(r) => r
      case Continue => WatchOutcome(events[1..], end)
  }

  /** Index of the event that ends the loop, or `|events|` if none does. */
  function StopIndex(events: seq<Event>): (k: nat)
    requires ReadsWellFormed(events)
    ensures k <= |events|
    ensures forall j :: 0 <= j < k ==> Continues(events[j])
    ensures k < |events| ==> Stops(events[k])
    decreases |events|
  {
    if |events| == 0 || Handle(events[0]).Stop? then 0
    else
      var k := StopIndex(events[1..]);
      assert forall j :: 1 <= j < k + 1 ==> events[j] == events[1..][j - 1];
      k + 1
  }

  /** A prefix of events that the loop lets pass changes nothing: the loop
      state is the same after it as before. */
  lemma {:induction false} SkipContinuing(prefix: seq<Event>, rest: seq<Event>, end: StreamEnd)
    requires forall j :: 0 <= j < |prefix| ==> Continues(prefix[j])
    ensures ReadsWellFormed(prefix + rest) <==> ReadsWellFormed(rest)
    ensures ReadsWellFormed(rest) ==> WatchOutcome(prefix + rest, end) == WatchOutcome(rest, end)
    decreases |prefix|
  {
    if |prefix| > 0 {
      var s := prefix + rest;
      assert s[0] == prefix[0];
      assert s[1..] == prefix[1..] + rest;
      SkipContinuing(prefix[1..], rest, end);
    } else {
      assert prefix + rest == rest;
    }
  }

  /** Once reached, a deletion ends the bootstrap with its error, whatever
      pending events came before it and whatever follows. */
  lemma DeletionFails(prefix: seq<Event>, csr: Csr, rest: seq<Event>, end: StreamEnd)
    requires forall j :: 0 <= j < |prefix| ==> Continues(prefix[j])
    ensures ReadsWellFormed(prefix + [Deleted(csr)] + rest)
    ensures WatchOutcome(prefix + [Deleted(csr)] + rest, end) == Failure(DeletedBeforeApproval)
  {
    assert prefix + [Deleted(csr)] + rest == prefix + ([Deleted(csr)] + rest);
    SkipContinuing(prefix, [Deleted(csr)] + rest, end);
  }

  /** Once reached, a restart listing more than one request fails at once; no
      later event is consumed, so the result does not depend on them. */
  lemma RestartCollisionFails(prefix: seq<Event>, csrs: seq<Csr>, rest: seq<Event>, end: StreamEnd)
    requires forall j :: 0 <= j < |prefix| ==> Continues(prefix[j])
    requires |csrs| > 1
    ensures ReadsWellFormed(prefix + [Restarted(csrs)] + rest)
    ensures WatchOutcome(prefix + [Restarted(csrs)] + rest, end) == Failure(RestartCollision)
  {
    assert prefix + [Restarted(csrs)] + rest == prefix + ([Restarted(csrs)] + rest);
    SkipContinuing(prefix, [Restarted(csrs)] + rest, end);
  }

  /** Nothing after the stopping event is ever examined: replacing everything
      after it, and the stream's ending, leaves the result unchanged. */
  lemma LaterEventsIgnored(events: seq<Event>, later: seq<Event>, end: StreamEnd, end': StreamEnd)
    requires ReadsWellFormed(events)
    requires StopIndex(events) < |events|
    ensures var k := StopIndex(events);
      ReadsWellFormed(events[..k + 1] + later)
      && WatchOutcome(events[..k + 1] + later, end') == WatchOutcome(events, end)
  {
    var k := StopIndex(events);
    var s := events[..k + 1] + later;
    assert events[..k] + ([events[k]] + later) == s;
    SkipContinuing(events[..k], [events[k]] + later, end');
  }

  /** Success means some event carried an approved certificate whose bytes are
      exactly the returned text, and every event before it kept the loop
      waiting; and conversely. */
  lemma SuccessCharacterization(events: seq<Event>, end: StreamEnd, text: string)
    requires ReadsWellFormed(events)
    ensures WatchOutcome(events, end) == Success(text) <==>
      exists i :: 0 <= i < |events| && (forall j :: 0 <= j < i ==> Continues(events[j]))
        && Stops(events[i]) && Handle(events[i]) == Stop(Success(text))
  {
    var k := StopIndex(events);
    if exists i :: 0 <= i < |events| && (forall j :: 0 <= j < i ==> Continues(events[j]))
        && Stops(events[i]) && Handle(events[i]) == Stop(Success(text)) {
      var i :| 0 <= i < |events| && (forall j :: 0 <= j < i ==> Continues(events[j]))
        && Stops(events[i]) && Handle(events[i]) == Stop(Success(text));
      assert !Continues(events[i]);
      if k < |events| {
        assert !Continues(events[k]);
      }
    }
  }

  /** The loop gives up with "never approved" exactly when no event stops it
      and the stream ends cleanly; a failing read gives the watch error instead. */
  lemma NeverApprovedCharacterization(events: seq<Event>, end: StreamEnd)
    requires ReadsWellFormed(events)
    ensures WatchOutcome(events, end) == Failure(NeverApproved) <==>
      (forall j :: 0 <= j < |events| ==> Continues(events[j])) && end == Exhausted
    ensures WatchOutcome(events, end) == Failure(WatchFailed) <==>
      (forall j :: 0 <= j < |events| ==> Continues(events[j])) && end == ReadFailed
  {
    var k := StopIndex(events);
    if k < |events| {
      assert !Continues(events[k]);
      var r := Handle(events[k]).result;
      match events[k]
      case Applied(csr) => assert r.Failure? ==> r.error == InvalidUtf8;
      case Restarted(csrs) => assert r.Failure? ==> r.error in {InvalidUtf8, RestartCollision};
      case Deleted(_) =>
    }
  }

  /** The loop of `bootstrap_tls` as written: a certificate text and a
      `got_cert` flag, updated only by an accepted event. */
  method WatchForCertificate(events: seq<Event>, end: StreamEnd) returns (r: Result<string, BootstrapError>)
    requires ReadsWellFormed(events)
    ensures r == WatchOutcome(events, end)
    ensures r.Success? ==> exists i :: 0 <= i < |events| && Stops(events[i])
  {
    var certificate := "";
    var gotCert := false;
    var i := 0;
    while i < |events|
      invariant 0 <= i <= |events|
      invariant ReadsWellFormed(events[i..])
      invariant WatchOutcome(events, end) == WatchOutcome(events[i..], end)
      invariant !gotCert
    {
      var e := events[i];
      assert events[i..][0] == e;
      var status: CsrStatus;
      match e {
        case Applied(csr) =>
          status := csr.status.value;
        case Restarted(csrs) =>
          if |csrs| > 1 {
            return Failure(RestartCollision);
          }
          status := csrs[0].status.value;
        case Deleted(_) =>
          return Failure(DeletedBeforeApproval);
      }
      if status.certificate.Some? && status.conditions.Some? && AnyApproved(status.conditions.value) {
        match Decode(status.certificate.value) {
          case None =>
            return Failure(InvalidUtf8);
          case Some(text) =>
            certificate := text;
            gotCert := true;
        }
        break;
      }
      assert events[i..][1..] == events[i + 1..];
      i := i + 1;
    }
    if !gotCert {
      assert i == |events|;
      // the read that follows the last delivered event either fails or reports the end
      if end == ReadFailed {
        return Failure(WatchFailed);
      }
      return Failure(NeverApproved);
    }
    r := Success(certificate);
  }

  // ---------------------------------------------------------------------------
  // The whole bootstrap
  // ---------------------------------------------------------------------------

  const CertPath: string := "./mycert.crt"
  const KeyPath: string := "./mycert.key"

  /** What a successful bootstrap writes: the certificate, then the private key. */
  datatype FileWrite = FileWrite(path: string, contents: string)

  datatype CertError = CertError(message: string)

  datatype CreateError = CreateError(message: string)

  /** What certificate generation yields: the base64 text of the PEM request
      (whose serialisation may itself fail) and the private key's PEM. */
  datatype CertBundle = CertBundle(encodedRequest: Result<string, CertError>, privateKeyPem: string)

  datatype WatchStream = WatchStream(events: seq<Event>, end: StreamEnd)

  /** The collaborators of `bootstrap_tls`: key and certificate generation from
      the parameters, request creation, and the filtered watch. */
  datatype Collaborators = Collaborators(
    generate: CertificateParams -> Result<CertBundle, CertError>,
    create: CsrDefinition -> Result<(), CreateError>,
    watch: string -> WatchStream)

  datatype BootstrapFailure =
    | CertFailed(certError: CertError)
    | CreateFailed(createError: CreateError)
    | WatchError(watchError: BootstrapError)

  /** A bootstrap: the request objects posted, the watch filters opened, and the result. */
  datatype BootstrapRun = BootstrapRun(
    posted: seq<CsrDefinition>,
    watched: seq<string>,
    result: Result<seq<FileWrite>, BootstrapFailure>)

  /** The watch is reached: generation, serialisation and creation all succeeded. */
  predicate WatchReached(host: string, ip: Ipv4, env: Collaborators) {
    && env.generate(TlsCertParams(host, ip)).Success?
    && env.generate(TlsCertParams(host, ip)).value.encodedRequest.Success?
    && env.create(CsrDefinitionFor(host, env.generate(TlsCertParams(host, ip)).value.encodedRequest.value)).Success?
  }

  /** `bootstrap_tls` for `host` at `ip`: generate the key and request, post the
      request, watch it by name, and on approval write the certificate and then
      the private key to their fixed paths. Each step's error ends the bootstrap. */
  function BootstrapTls(host: string, ip: Ipv4, env: Collaborators): (r: BootstrapRun)
    requires WatchReached(host, ip, env) ==> ReadsWellFormed(env.watch(WatchFilter(host)).events)
    ensures var gen := env.generate(TlsCertParams(host, ip));
      gen.Failure? ==> r == BootstrapRun([], [], Failure(CertFailed(gen.error)))
    ensures var gen := env.generate(TlsCertParams(host, ip));
      gen.Success? && gen.value.encodedRequest.Failure? ==>
        r == BootstrapRun([], [], Failure(CertFailed(gen.value.encodedRequest.error)))
    ensures var gen := env.generate(TlsCertParams(host, ip));
      gen.Success? && gen.value.encodedRequest.Success? ==>
        r.posted == [CsrDefinitionFor(host, gen.value.encodedRequest.value)]
    ensures var gen := env.generate(TlsCertParams(host, ip));
      gen.Success? && gen.value.encodedRequest.Success? && !WatchReached(host, ip, env) ==>
        r.watched == [] && r.result == Failure(CreateFailed(env.create(r.posted[0]).error))
    ensures WatchReached(host, ip, env) ==>
      var stream := env.watch(WatchFilter(host));
      var outcome := WatchOutcome(stream.events, stream.end);
      && r.watched == [WatchFilter(host)]
      && (r.result.Success? <==> outcome.Success?)
      && (outcome.Failure? ==> r.result == Failure(WatchError(outcome.error)))
      && (outcome.Success? ==>
            r.result.value == [FileWrite(CertPath, outcome.value),
                               FileWrite(KeyPath, env.generate(TlsCertParams(host, ip)).value.privateKeyPem)])
    ensures r.result.Success? ==>
      WatchReached(host, ip, env)
      && var events := env.watch(WatchFilter(host)).events;
      exists i :: 0 <= i < |events| && (forall j :: 0 <= j < i ==> Continues(events[j]))
        && Stops(events[i]) && IsApprovedEvent(events[i])
        && Encode(r.result.value[0].contents) == ApprovedCertificate(events[i])
  {
    match env.generate(TlsCertParams(host, ip))
    case Failure(e) => BootstrapRun([], [], Failure(CertFailed(e)))
    case Success(bundle) =>
      match bundle.encodedRequest
      case Failure(e) => BootstrapRun([], [], Failure(CertFailed(e)))
      case Success(encoded) =>
        var definition := CsrDefinitionFor(host, encoded);
        match env.create(definition)
        case Failure(e) => BootstrapRun([definition], [], Failure(CreateFailed(e)))
        case Success(_) =>
          var filter := WatchFilter(host);
          var stream := env.watch(filter);
          match WatchOutcome(stream.events, stream.end)
          case Failure(e) => BootstrapRun([definition], [filter], Failure(WatchError(e)))
          case Success(certificate) =>
            SuccessCharacterization(stream.events, stream.end, certificate);
            BootstrapRun([definition], [filter],
              Success([FileWrite(CertPath, certificate), FileWrite(KeyPath, bundle.privateKeyPem)]))
  }

  /** The event hands over a status the loop accepts. */
  predicate IsApprovedEvent(e: Event) {
    match e
    case Applied(csr) => csr.status.Some? && IsApproved(csr.status.value)
    case Restarted(csrs) => |csrs| == 1 && csrs[0].status.Some? && IsApproved(csrs[0].status.value)
    case Deleted(_) => false
  }

  function ApprovedCertificate(e: Event): seq<byte>
    requires IsApprovedEvent(e)
  {
    match e
    case Applied(csr) => csr.status.value.certificate.value
    case Restarted(csrs) => csrs[0].status.value.certificate.value
  }
}

=== FILE: minikubelet.dfy ===
/**
 * Kubelet startup: the node it registers (built with the node builder), the
 * Lease it creates for that node, and the order of the two cluster calls.
 *
 * The cluster API is an opaque oracle (one total function per call); the
 * current time is an input, kept as the RFC 3339 text the source formats.
 */
module MiniKubelet {
  import opened Wrappers
  import opened NodeMod

  /** The host name startup registers; the source writes it out at each use. */
  const NodeName: string := "my-imac"

  /** The node UID the source writes into the lease; it is a literal, not read
      from the node the cluster created. */
  const HardCodedNodeUid: string := "fced67d4-e649-41c3-943a-cc6a43fcdf41"
  const LeaseNamespace: string := "kube-node-lease"
  const LeaseDurationSeconds: int := 300

  // ---------------------------------------------------------------------------
  // The registered node
  // ---------------------------------------------------------------------------

  const TtlAnnotation: string := "node.alpha.kubernetes.io/ttl"
  const AttachDetachAnnotation: string := "volumes.kubernetes.io/controller-managed-attach-detach"
  const HostnameLabel: string := "kubernetes.io/hostname"

  /** The builder calls of `Kubelet::start`, in order. */
  function StartBuilderOps(): seq<BuilderOp> {
    [ SetNameOp(NodeName),
      AddAnnotationOp(TtlAnnotation, "0"),
      AddAnnotationOp(AttachDetachAnnotation, "true"),
      AddLabelOp(HostnameLabel, NodeName),
      AddCapacityOp("cpu", "4") ]
  }

  function StartNode(): KubeNode {
    Build(ApplyAll(DefaultBuilder(), StartBuilderOps()))
  }

  /** The node registered at startup: named `my-imac`, exactly the two
      annotations, the hostname label and a capacity of 4 cpu, with every other
      field at the builder's default. */
  lemma StartNodeContents()
    ensures var n := StartNode();
      && n.metadata.name == Some("my-imac")
      && n.metadata.annotations == Some(map[
           "node.alpha.kubernetes.io/ttl" := "0",
           "volumes.kubernetes.io/controller-managed-attach-detach" := "true"])
      && n.metadata.labels == Some(map["kubernetes.io/hostname" := "my-imac"])
      && n.status.value.capacity == Some(map["cpu" := Quantity("4")])
      && n.metadata.uid.None?
      && BuilderOf(n) == Some(DefaultBuilder().(
           name := "my-imac",
           annotations := n.metadata.annotations.value,
           labels := n.metadata.labels.value,
           capacity := n.status.value.capacity.value))
  {
    var ops := StartBuilderOps();
    var b0 := DefaultBuilder();
    assert ops == [] + [ops[0]] + [ops[1]] + [ops[2]] + [ops[3]] + [ops[4]];
    ApplyAllAppend(b0, [], ops[0]);
    ApplyAllAppend(b0, [ops[0]], ops[1]);
    ApplyAllAppend(b0, [ops[0]] + [ops[1]], ops[2]);
    ApplyAllAppend(b0, [ops[0]] + [ops[1]] + [ops[2]], ops[3]);
    ApplyAllAppend(b0, [ops[0]] + [ops[1]] + [ops[2]] + [ops[3]], ops[4]);
    assert [] + [ops[0]] == [ops[0]];
    var b := ApplyAll(b0, ops);
    assert b.annotations == map[TtlAnnotation := "0", AttachDetachAnnotation := "true"];
  }

  // ---------------------------------------------------------------------------
  // The lease
  // ---------------------------------------------------------------------------

  datatype MicroTime = MicroTime(rfc3339: string)

  datatype OwnerReference = OwnerReference(apiVersion: string, kind: string, name: string, uid: string)

  datatype LeaseMeta = LeaseMeta(name: string, ownerReferences: seq<OwnerReference>)

  datatype LeaseSpec = LeaseSpec(
    holderIdentity: string,
    acquireTime: MicroTime,
    renewTime: MicroTime,
    leaseDurationSeconds: int)

  datatype Lease = Lease(apiVersion: string, kind: string, metadata: LeaseMeta, spec: LeaseSpec)

  /** `lease_spec_definition`: held by the node, acquired and renewed at the
      same instant `now`, for 300 seconds. */
  function LeaseSpecDefinition(nodeName: string, now: MicroTime): (s: LeaseSpec)
    ensures s.holderIdentity == nodeName
    ensures s.acquireTime == s.renewTime == now
    ensures s.leaseDurationSeconds == LeaseDurationSeconds
  {
    LeaseSpec(nodeName, now, now, LeaseDurationSeconds)
  }

  /** `lease_definition`: a lease named after the node and owned by it. */
  function LeaseDefinition(nodeUid: string, nodeName: string, now: MicroTime): (l: Lease)
    ensures LeaseOwner(l) == Some((nodeName, nodeUid))
    ensures l.metadata.name == l.spec.holderIdentity == nodeName
    ensures l.spec.acquireTime == l.spec.renewTime == now
    ensures l.apiVersion == "coordination.k8s.io/v1" && l.kind == "Lease"
    ensures l.spec == LeaseSpecDefinition(nodeName, now)
  {
    Lease(
      "coordination.k8s.io/v1",
      "Lease",
      LeaseMeta(nodeName, [OwnerReference("v1", "Node", nodeName, nodeUid)]),
      LeaseSpecDefinition(nodeName, now))
  }

  /** The node a lease belongs to: its single owner reference, if that is a
      `v1` Node; the node's name and uid. */
  function LeaseOwner(l: Lease): (r: Option<(string, string)>)
    ensures r.Some? ==>
      |l.metadata.ownerReferences| == 1
      && l.metadata.ownerReferences[0] == OwnerReference("v1", "Node", r.value.0, r.value.1)
  {
    if |l.metadata.ownerReferences| == 1
       && l.metadata.ownerReferences[0].apiVersion == "v1"
       && l.metadata.ownerReferences[0].kind == "Node"
    then Some((l.metadata.ownerReferences[0].name, l.metadata.ownerReferences[0].uid))
    else None
  }

  /** Distinct nodes get distinct leases: the owner and the time can be read
      back from the lease. */
  lemma LeaseDefinitionInjective(u1: string, n1: string, t1: MicroTime, u2: string, n2: string, t2: MicroTime)
    requires LeaseDefinition(u1, n1, t1) == LeaseDefinition(u2, n2, t2)
    ensures u1 == u2 && n1 == n2 && t1 == t2
  {
    assert LeaseOwner(LeaseDefinition(u1, n1, t1)) == Some((n1, u1));
  }

  // ---------------------------------------------------------------------------
  // Startup
  // ---------------------------------------------------------------------------

  datatype ApiError = ApiError(code: int, reason: string)

  /** The cluster API: what it answers to a node creation and to a lease
      creation in a namespace. */
  datatype ClusterApi = ClusterApi(
    createNode: KubeNode -> Result<KubeNode, ApiError>,
    createLease: (string, Lease) -> Result<Lease, ApiError>)

  datatype ApiCall =
    | CreateNodeCall(node: KubeNode, nodeReply: Result<KubeNode, ApiError>)
    | CreateLeaseCall(namespace: string, lease: Lease, leaseReply: Result<Lease, ApiError>)

  /** How startup ended: normally, by the panic on a failed node creation, or
      (corrected startup only) without a lease because the created node had no uid. */
  datatype StartOutcome = Started | Panicked(error: ApiError) | NoNodeUid

  datatype StartRun = StartRun(trace: seq<ApiCall>, outcome: StartOutcome)

  /** `create_lease`: one creation in the node-lease namespace; its failure is
      logged and swallowed. */
  function CreateLease(nodeUid: string, nodeName: string, now: MicroTime, api: ClusterApi): (c: ApiCall)
    ensures c.CreateLeaseCall? && c.namespace == LeaseNamespace
    ensures LeaseOwner(c.lease) == Some((nodeName, nodeUid))
    ensures c.lease == LeaseDefinition(nodeUid, nodeName, now)
    ensures c.leaseReply == api.createLease(LeaseNamespace, c.lease)
  {
    var lease := LeaseDefinition(nodeUid, nodeName, now);
    CreateLeaseCall(LeaseNamespace, lease, api.createLease(LeaseNamespace, lease))
  }

  /** `Kubelet::start` as written: create the node, then the lease owned by the
      hard-coded uid. */
  function Start(api: ClusterApi, now: MicroTime): (r: StartRun)
    ensures 1 <= |r.trace| <= 2
    ensures r.trace[0] == CreateNodeCall(StartNode(), api.createNode(StartNode()))
    ensures |r.trace| == 2 <==> api.createNode(StartNode()).Success?
    ensures |r.trace| == 2 ==> r.trace[1] == CreateLease(HardCodedNodeUid, NodeName, now, api)
    ensures r.outcome.Started? <==> api.createNode(StartNode()).Success?
    ensures r.outcome.Panicked? ==> r.outcome.error == api.createNode(StartNode()).error
    ensures !r.outcome.NoNodeUid?
  {
    var node := StartNode();
    var created := api.createNode(node);
    var first := CreateNodeCall(node, created);
    match created
    case Failure(e) => StartRun([first], Panicked(e))
    case Success(_) => StartRun([first, CreateLease(HardCodedNodeUid, NodeName, now, api)], Started)
  }

  /** The lease is never attempted before the node exists: in every run, a
      lease call comes only after a successful node creation. */
  lemma LeaseAfterNode(api: ClusterApi, now: MicroTime)
    ensures var t := Start(api, now).trace;
      forall i :: 0 <= i < |t| && t[i].CreateLeaseCall? ==>
        exists j :: 0 <= j < i && t[j].CreateNodeCall? && t[j].nodeReply.Success?
  {
    var t := Start(api, now).trace;
    if |t| == 2 {
      assert t[0].CreateNodeCall? && t[0].nodeReply.Success?;
    }
  }

  /** Once the node exists, startup ends normally whatever the lease creation
      answered: a failed lease creation is swallowed. */
  lemma LeaseFailureSwallowed(api: ClusterApi, now: MicroTime)
    requires api.createNode(StartNode()).Success?
    ensures |Start(api, now).trace| == 2 && Start(api, now).outcome == Started
  {
  }

  /** As written, the lease ignores the uid the cluster assigned to the created
      node: whenever that uid differs from the literal, the lease's owner
      reference names a node uid that does not exist. */
  lemma StartIgnoresCreatedUid(api: ClusterApi, now: MicroTime, clusterUid: string)
    requires api.createNode(StartNode()).Success?
    requires api.createNode(StartNode()).value.metadata.uid == Some(clusterUid)
    requires clusterUid != HardCodedNodeUid
    ensures var t := Start(api, now).trace;
      |t| == 2 && LeaseOwner(t[1].lease).Some? && LeaseOwner(t[1].lease).value.1 != clusterUid
  {
  }

  /** Startup with the owner uid read back from the created node. */
  function StartWithCreatedUid(api: ClusterApi, now: MicroTime): (r: StartRun)
    ensures 1 <= |r.trace| <= 2
    ensures r.trace[0] == CreateNodeCall(StartNode(), api.createNode(StartNode()))
    ensures r.outcome.Started? <==> |r.trace| == 2
    ensures r.outcome.Panicked? <==> api.createNode(StartNode()).Failure?
  {
    var node := StartNode();
    var created := api.createNode(node);
    var first := CreateNodeCall(node, created);
    match created
    case Failure(e) => StartRun([first], Panicked(e))
    case Success(n) =>
      match n.metadata.uid
      case None => StartRun([first], NoNodeUid)
      case Some(uid) => StartRun([first, CreateLease(uid, NodeName, now, api)], Started)
  }

  /** With the correction, a lease is created exactly when the cluster created
      the node and gave it a uid, and it is owned by that very node. */
  lemma CorrectedLeaseOwnedByCreatedNode(api: ClusterApi, now: MicroTime)
    ensures var r := StartWithCreatedUid(api, now);
      var created := api.createNode(StartNode());
      && (|r.trace| == 2 <==> created.Success? && created.value.metadata.uid.Some?)
      && (|r.trace| == 2 ==>
            && r.trace[1].CreateLeaseCall?
            && r.trace[1].namespace == LeaseNamespace
            && LeaseOwner(r.trace[1].lease) == Some((NodeName, created.value.metadata.uid.value)))
  {
  }
}

=== FILE: node.dfy ===
/**
 * The Node builder of `nodemod::node`: a name and three string maps
 * (annotations, labels, capacity) accumulated over fixed defaults, and
 * `build`, which places every builder field into a Node object.
 */
module NodeMod {
  import opened Wrappers

  newtype int32 = x: int | -0x8000_0000 <= x < 0x8000_0000

  /** A resource quantity, kept as the text it was given. */
  datatype Quantity = Quantity(text: string)

  datatype Taint = Taint(key: string, value: Option<string>, effect: string)

  datatype NodeCondition = NodeCondition(conditionType: string, status: string)

  datatype NodeAddress = NodeAddress(addressType: string, address: string)

  datatype Builder = Builder(
    name: string,
    annotations: map<string, string>,
    labels: map<string, string>,
    podCidr: string,
    taints: seq<Taint>,
    architecture: string,
    kubeProxyVersion: string,
    kubeletVersion: string,
    containerRuntimeVersion: string,
    operatingSystem: string,
    capacity: map<string, Quantity>,
    allocatable: map<string, Quantity>,
    port: int32,
    conditions: seq<NodeCondition>,
    addresses: seq<NodeAddress>)

  /** `Node::builder()`, i.e. `Builder::default()`. */
  function DefaultBuilder(): Builder {
    Builder(
      name := "krustlet",
      annotations := map[],
      labels := map[],
      podCidr := "10.244.0.0/24",
      taints := [],
      architecture := "",
      kubeProxyVersion := "v1.17.0",
      kubeletVersion := "v1.24.7",
      containerRuntimeVersion := "mvp",
      operatingSystem := "linux",
      capacity := map[],
      allocatable := map[],
      port := 10250,
      conditions := [],
      addresses := [])
  }

  // ---------------------------------------------------------------------------
  // Builder operations
  // ---------------------------------------------------------------------------

  /** A map after inserting `k`: `k` holds the new value, every other key keeps
      its presence and value. */
  ghost predicate InsertedInto<V>(before: map<string, V>, after: map<string, V>, k: string, v: V) {
    && after.Keys == before.Keys + {k}
    && after[k] == v
    && forall k' :: k' in before && k' != k ==> after[k'] == before[k']
  }

  function SetName(b: Builder, name: string): (r: Builder)
    ensures r.name == name
    ensures r.(name := b.name) == b
  {
    b.(name := name)
  }

  function AddAnnotation(b: Builder, key: string, value: string): (r: Builder)
    ensures InsertedInto(b.annotations, r.annotations, key, value)
    ensures r.(annotations := b.annotations) == b
  {
    b.(annotations := b.annotations[key := value])
  }

  function AddLabel(b: Builder, key: string, value: string): (r: Builder)
    ensures InsertedInto(b.labels, r.labels, key, value)
    ensures r.(labels := b.labels) == b
  {
    b.(labels := b.labels[key := value])
  }

  /** The capacity value is wrapped, unchanged, as a quantity. */
  function AddCapacity(b: Builder, key: string, value: string): (r: Builder)
    ensures InsertedInto(b.capacity, r.capacity, key, Quantity(value))
    ensures r.(capacity := b.capacity) == b
  {
    b.(capacity := b.capacity[key := Quantity(value)])
  }

  /** Writing the same annotation twice keeps only the second value. */
  lemma AnnotationLastWriteWins(b: Builder, key: string, v1: string, v2: string)
    ensures AddAnnotation(AddAnnotation(b, key, v1), key, v2) == AddAnnotation(b, key, v2)
  {
    assert b.annotations[key := v1][key := v2] == b.annotations[key := v2];
  }

  /** Annotations under different keys may be added in either order. */
  lemma AnnotationsCommute(b: Builder, k1: string, v1: string, k2: string, v2: string)
    requires k1 != k2
    ensures AddAnnotation(AddAnnotation(b, k1, v1), k2, v2) == AddAnnotation(AddAnnotation(b, k2, v2), k1, v1)
  {
    assert b.annotations[k1 := v1][k2 := v2] == b.annotations[k2 := v2][k1 := v1];
  }

  // ---------------------------------------------------------------------------
  // Sequences of builder calls
  // ---------------------------------------------------------------------------

  datatype BuilderOp =
    | SetNameOp(name: string)
    | AddAnnotationOp(key: string, value: string)
    | AddLabelOp(key: string, value: string)
    | AddCapacityOp(key: string, value: string)

  /** The three string maps a caller can write. */
  datatype MapKind = Annotations | Labels | Capacity

  function Apply(b: Builder, op: BuilderOp): Builder {
    match op
    case SetNameOp(n) => SetName(b, n)
    case AddAnnotationOp(k, v) => AddAnnotation(b, k, v)
    case AddLabelOp(k, v) => AddLabel(b, k, v)
    case AddCapacityOp(k, v) => AddCapacity(b, k, v)
  }

  /** The builder after the calls `ops`, in order. */
  function ApplyAll(b: Builder, ops: seq<BuilderOp>): Builder
    decreases |ops|
  {
    if |ops| == 0 then b else Apply(ApplyAll(b, ops[..|ops| - 1]), ops[|ops| - 1])
  }

  /** The string map of the given kind, capacity quantities read as their text. */
  function View(b: Builder, kind: MapKind): map<string, string> {
    match kind
    case Annotations => b.annotations
    case Labels => b.labels
    case Capacity => map k | k in b.capacity :: b.capacity[k].text
  }

  predicate Writes(op: BuilderOp, kind: MapKind, key: string) {
    match op
    case SetNameOp(_) => false
    case AddAnnotationOp(k, _) => kind == Annotations && k == key
    case AddLabelOp(k, _) => kind == Labels && k == key
    case AddCapacityOp(k, _) => kind == Capacity && k == key
  }

  /** Calls are applied in order: one more call acts on the builder the earlier ones left. */
  lemma ApplyAllAppend(b: Builder, ops: seq<BuilderOp>, op: BuilderOp)
    ensures ApplyAll(b, ops + [op]) == Apply(ApplyAll(b, ops), op)
  {
    assert (ops + [op])[..|ops|] == ops;
  }

  /** Reference definition: the value of the last call that writes `key` into
      the map of kind `kind`, if any. */
  function LastWrite(ops: seq<BuilderOp>, kind: MapKind, key: string): Option<string>
    decreases |ops|
  {
    if |ops| == 0 then None
    else if Writes(ops[|ops| - 1], kind, key) then Some(ops[|ops| - 1].value)
    else LastWrite(ops[..|ops| - 1], kind, key)
  }

  /** Reference definition: the argument of the last `set_name`, if any. */
  function LastName(ops: seq<BuilderOp>): Option<string>
    decreases |ops|
  {
    if |ops| == 0 then None
    else if ops[|ops| - 1].SetNameOp? then Some(ops[|ops| - 1].name)
    else LastName(ops[..|ops| - 1])
  }

  /** One call: a key it writes holds its value, every other key of that map
      is as it was. */
  lemma ApplyView(b: Builder, op: BuilderOp, kind: MapKind, key: string)
    ensures var m := View(Apply(b, op), kind);
      if Writes(op, kind, key) then key in m && m[key] == op.value
      else (key in m <==> key in View(b, kind)) && (key in m ==> m[key] == View(b, kind)[key])
  {
    if kind == Capacity && op.AddCapacityOp? {
      assert Apply(b, op).capacity == b.capacity[op.key := Quantity(op.value)];
    }
  }

  /** One call changes no field other than the name and the three maps. */
  lemma ApplyFrames(b: Builder, op: BuilderOp)
    ensures Apply(b, op).(name := b.name, annotations := b.annotations, labels := b.labels, capacity := b.capacity) == b
  {
  }

  /** Last write wins: after any sequence of calls, a key holds the value of the
      last call that wrote it, and a key no call wrote is as it was. */
  lemma {:induction false} LastWriteWins(b: Builder, ops: seq<BuilderOp>, kind: MapKind, key: string)
    ensures var m := View(ApplyAll(b, ops), kind);
      match LastWrite(ops, kind, key)
      case Some(v) => key in m && m[key] == v
      case None => (key in m <==> key in View(b, kind)) && (key in m ==> m[key] == View(b, kind)[key])
    decreases |ops|
  {
    if |ops| > 0 {
      LastWriteWins(b, ops[..|ops| - 1], kind, key);
      ApplyView(ApplyAll(b, ops[..|ops| - 1]), ops[|ops| - 1], kind, key);
    }
  }

  /** The name is the last one set, or the builder's own if none was. */
  lemma {:induction false} LastNameWins(b: Builder, ops: seq<BuilderOp>)
    ensures ApplyAll(b, ops).name == match LastName(ops) case Some(n) => n case None => b.name
    decreases |ops|
  {
    if |ops| > 0 {
      LastNameWins(b, ops[..|ops| - 1]);
    }
  }

  /** The builder calls never touch the fields they do not name. */
  lemma {:induction false} OtherFieldsUnchanged(b: Builder, ops: seq<BuilderOp>)
    ensures var r := ApplyAll(b, ops);
      r.(name := b.name, annotations := b.annotations, labels := b.labels, capacity := b.capacity) == b
    decreases |ops|
  {
    if |ops| > 0 {
      var prev := ApplyAll(b, ops[..|ops| - 1]);
      OtherFieldsUnchanged(b, ops[..|ops| - 1]);
      ApplyFrames(prev, ops[|ops| - 1]);
      assert ApplyAll(b, ops) == Apply(prev, ops[|ops| - 1]);
    }
  }

  // ---------------------------------------------------------------------------
  // The Node object and `build`
  // ---------------------------------------------------------------------------

  datatype ObjectMeta = ObjectMeta(
    name: Option<string>,
    uid: Option<string>,
    namespace: Option<string>,
    annotations: Option<map<string, string>>,
    labels: Option<map<string, string>>)

  datatype NodeSpec = NodeSpec(
    podCidr: Option<string>,
    taints: Option<seq<Taint>>,
    providerId: Option<string>,
    unschedulable: Option<bool>)

  datatype NodeSystemInfo = NodeSystemInfo(
    architecture: string,
    bootId: string,
    containerRuntimeVersion: string,
    kernelVersion: string,
    kubeProxyVersion: string,
    kubeletVersion: string,
    machineId: string,
    operatingSystem: string,
    osImage: string,
    systemUuid: string)

  datatype DaemonEndpoint = DaemonEndpoint(port: int32)

  datatype NodeDaemonEndpoints = NodeDaemonEndpoints(kubeletEndpoint: Option<DaemonEndpoint>)

  datatype NodeStatus = NodeStatus(
    nodeInfo: Option<NodeSystemInfo>,
    capacity: Option<map<string, Quantity>>,
    allocatable: Option<map<string, Quantity>>,
    daemonEndpoints: Option<NodeDaemonEndpoints>,
    conditions: Option<seq<NodeCondition>>,
    addresses: Option<seq<NodeAddress>>,
    phase: Option<string>)

  datatype KubeNode = KubeNode(metadata: ObjectMeta, spec: Option<NodeSpec>, status: Option<NodeStatus>)

  /** Reads a builder back out of a node; fails if a field `build` always sets is missing. */
  function BuilderOf(n: KubeNode): Option<Builder> {
    if && n.metadata.name.Some? && n.metadata.annotations.Some? && n.metadata.labels.Some?
       && n.spec.Some? && n.spec.value.podCidr.Some? && n.spec.value.taints.Some?
       && n.status.Some? && n.status.value.nodeInfo.Some?
       && n.status.value.capacity.Some? && n.status.value.allocatable.Some?
       && n.status.value.daemonEndpoints.Some? && n.status.value.daemonEndpoints.value.kubeletEndpoint.Some?
       && n.status.value.conditions.Some? && n.status.value.addresses.Some?
    then
      var info := n.status.value.nodeInfo.value;
      Some(Builder(
        name := n.metadata.name.value,
        annotations := n.metadata.annotations.value,
        labels := n.metadata.labels.value,
        podCidr := n.spec.value.podCidr.value,
        taints := n.spec.value.taints.value,
        architecture := info.architecture,
        kubeProxyVersion := info.kubeProxyVersion,
        kubeletVersion := info.kubeletVersion,
        containerRuntimeVersion := info.containerRuntimeVersion,
        operatingSystem := info.operatingSystem,
        capacity := n.status.value.capacity.value,
        allocatable := n.status.value.allocatable.value,
        port := n.status.value.daemonEndpoints.value.kubeletEndpoint.value.port,
        conditions := n.status.value.conditions.value,
        addresses := n.status.value.addresses.value))
    else None
  }

  /** `build`: every builder field is carried into the node, so the builder can
      be read back unchanged; everything `build` does not set keeps its default. */
  function Build(b: Builder): (n: KubeNode)
    ensures BuilderOf(n) == Some(b)
    ensures n.metadata.uid.None? && n.metadata.namespace.None?
    ensures n.spec.Some? && n.spec.value.providerId.None? && n.spec.value.unschedulable.None?
    ensures n.status.Some? && n.status.value.phase.None?
    ensures var info := n.status.value.nodeInfo.value;
      info.bootId == info.kernelVersion == info.machineId == info.osImage == info.systemUuid == ""
  {
    var metadata := ObjectMeta(
      name := Some(b.name),
      uid := None,
      namespace := None,
      annotations := Some(b.annotations),
      labels := Some(b.labels));
    var spec := NodeSpec(podCidr := Some(b.podCidr), taints := Some(b.taints), providerId := None, unschedulable := None);
    var nodeInfo := NodeSystemInfo(
      architecture := b.architecture,
      bootId := "",
      containerRuntimeVersion := b.containerRuntimeVersion,
      kernelVersion := "",
      kubeProxyVersion := b.kubeProxyVersion,
      kubeletVersion := b.kubeletVersion,
      machineId := "",
      operatingSystem := b.operatingSystem,
      osImage := "",
      systemUuid := "");
    var status := NodeStatus(
      nodeInfo := Some(nodeInfo),
      capacity := Some(b.capacity),
      allocatable := Some(b.allocatable),
      daemonEndpoints := Some(NodeDaemonEndpoints(Some(DaemonEndpoint(b.port)))),
      conditions := Some(b.conditions),
      addresses := Some(b.addresses),
      phase := None);
    KubeNode(metadata, Some(spec), Some(status))
  }

  /** `build` loses nothing: distinct builders give distinct nodes. */
  lemma BuildInjective(b1: Builder, b2: Builder)
    requires Build(b1) == Build(b2)
    ensures b1 == b2
  {
    assert BuilderOf(Build(b1)) == Some(b1);
  }

  /** A node built from the defaults: name `krustlet`, pod CIDR `10.244.0.0/24`,
      kubelet endpoint 10250, kubelet `v1.24.7` on `linux`, and every map and
      list empty. */
  lemma DefaultNode()
    ensures var n := Build(DefaultBuilder());
      && n.metadata.name == Some("krustlet")
      && n.metadata.annotations == Some(map[]) && n.metadata.labels == Some(map[])
      && n.spec.value.podCidr == Some("10.244.0.0/24") && n.spec.value.taints == Some([])
      && n.status.value.daemonEndpoints == Some(NodeDaemonEndpoints(Some(DaemonEndpoint(10250))))
      && n.status.value.nodeInfo.value.kubeletVersion == "v1.24.7"
      && n.status.value.nodeInfo.value.kubeProxyVersion == "v1.17.0"
      && n.status.value.nodeInfo.value.containerRuntimeVersion == "mvp"
      && n.status.value.nodeInfo.value.operatingSystem == "linux"
      && n.status.value.nodeInfo.value.architecture == ""
      && n.status.value.capacity == Some(map[]) && n.status.value.allocatable == Some(map[])
      && n.status.value.conditions == Some([]) && n.status.value.addresses == Some([])
  {
  }
}

=== FILE: pod.dfy ===
/**
 * Running a pod on the container runtime: the sandbox and container
 * configurations derived from the pod, and the strictly ordered sequence of
 * runtime calls `run_pod` issues, each request built from the previous reply.
 *
 * The runtime is an opaque oracle: one total function per RPC, from request
 * to reply. A failed reply aborts the pipeline (the source panics there).
 */
module PodPipeline {
  import opened Wrappers

  // ---------------------------------------------------------------------------
  // The pod, as far as the pipeline reads it
  // ---------------------------------------------------------------------------

  datatype Container = Container(name: string, image: Option<string>)

  datatype PodSpec = PodSpec(containers: seq<Container>)

  datatype PodMeta = PodMeta(name: Option<string>, namespace: Option<string>)

  datatype Pod = Pod(metadata: PodMeta, spec: Option<PodSpec>)

  /** What the pipeline unwraps: a pod name, a spec, a first container, and
      that container's image. */
  predicate ValidPod(pod: Pod) {
    && pod.metadata.name.Some?
    && pod.spec.Some?
    && |pod.spec.value.containers| > 0
    && pod.spec.value.containers[0].image.Some?
  }

  function FirstContainer(pod: Pod): Container
    requires ValidPod(pod)
  {
    pod.spec.value.containers[0]
  }

  // ---------------------------------------------------------------------------
  // Container-runtime messages
  // ---------------------------------------------------------------------------

  datatype PodSandboxMetadata = PodSandboxMetadata(name: string, uid: string, namespace: string, attempt: nat)

  datatype PortMapping = PortMapping(containerPort: int, hostPort: int, hostIp: string)

  datatype DnsConfig = DnsConfig(servers: seq<string>, searches: seq<string>, options: seq<string>)

  datatype PodSandboxConfig = PodSandboxConfig(
    metadata: Option<PodSandboxMetadata>,
    hostname: string,
    logDirectory: string,
    dnsConfig: Option<DnsConfig>,
    portMappings: seq<PortMapping>,
    labels: map<string, string>,
    annotations: map<string, string>)

  datatype ContainerMetadata = ContainerMetadata(name: string, attempt: nat)

  datatype ImageSpec = ImageSpec(image: string, annotations: map<string, string>)

  datatype KeyValue = KeyValue(key: string, value: string)

  datatype Mount = Mount(containerPath: string, hostPath: string, readonly: bool)

  datatype ContainerConfig = ContainerConfig(
    metadata: Option<ContainerMetadata>,
    image: Option<ImageSpec>,
    command: seq<string>,
    args: seq<string>,
    workingDir: string,
    envs: seq<KeyValue>,
    mounts: seq<Mount>,
    labels: map<string, string>,
    annotations: map<string, string>,
    logPath: string,
    stdin: bool,
    stdinOnce: bool,
    tty: bool)

  datatype RunPodSandboxRequest = RunPodSandboxRequest(config: Option<PodSandboxConfig>, runtimeHandler: string)

  datatype CreateContainerRequest = CreateContainerRequest(
    podSandboxId: string,
    config: Option<ContainerConfig>,
    sandboxConfig: Option<PodSandboxConfig>)

  datatype StartContainerRequest = StartContainerRequest(containerId: string)

  datatype PodSandboxFilter = PodSandboxFilter(id: string)

  datatype ContainerFilter = ContainerFilter(id: string, podSandboxId: string)

  datatype ListPodSandboxRequest = ListPodSandboxRequest(filter: Option<PodSandboxFilter>)

  datatype ListContainersRequest = ListContainersRequest(filter: Option<ContainerFilter>)

  datatype PodSandboxInfo = PodSandboxInfo(id: string, state: int)

  datatype ContainerInfo = ContainerInfo(id: string, podSandboxId: string, state: int)

  /** The remote error a failed call reports. */
  datatype Status = Status(code: int, message: string)

  /** The runtime daemon: what it answers to each request. */
  datatype Runtime = Runtime(
    runPodSandbox: RunPodSandboxRequest -> Result<string, Status>,
    createContainer: CreateContainerRequest -> Result<string, Status>,
    startContainer: StartContainerRequest -> Result<(), Status>,
    listPodSandbox: ListPodSandboxRequest -> Result<seq<PodSandboxInfo>, Status>,
    listContainers: ListContainersRequest -> Result<seq<ContainerInfo>, Status>)

  /** One issued call together with the reply it got. */
  datatype Call =
    | RunPodSandbox(runReq: RunPodSandboxRequest, runReply: Result<string, Status>)
    | CreateContainer(createReq: CreateContainerRequest, createReply: Result<string, Status>)
    | StartContainer(startReq: StartContainerRequest, startReply: Result<(), Status>)
    | ListPodSandbox(listSandboxReq: ListPodSandboxRequest, listSandboxReply: Result<seq<PodSandboxInfo>, Status>)
    | ListContainers(listContainersReq: ListContainersRequest, listContainersReply: Result<seq<ContainerInfo>, Status>)

  predicate Succeeded(c: Call) {
    match c
    case RunPodSandbox(_, r) => r.Success?
    case CreateContainer(_, r) => r.Success?
    case StartContainer(_, r) => r.Success?
    case ListPodSandbox(_, r) => r.Success?
    case ListContainers(_, r) => r.Success?
  }

  function FailureOf(c: Call): Status
    requires !Succeeded(c)
  {
    match c
    case RunPodSandbox(_, r) => r.error
    case CreateContainer(_, r) => r.error
    case StartContainer(_, r) => r.error
    case ListPodSandbox(_, r) => r.error
    case ListContainers(_, r) => r.error
  }

  /** The reply recorded for a call is the runtime's answer to its request. */
  predicate AnsweredBy(rt: Runtime, c: Call) {
    match c
    case RunPodSandbox(req, reply) => reply == rt.runPodSandbox(req)
    case CreateContainer(req, reply) => reply == rt.createContainer(req)
    case StartContainer(req, reply) => reply == rt.startContainer(req)
    case ListPodSandbox(req, reply) => reply == rt.listPodSandbox(req)
    case ListContainers(req, reply) => reply == rt.listContainers(req)
  }

  datatype CallKind = RunPodSandboxKind | CreateContainerKind | StartContainerKind | ListPodSandboxKind | ListContainersKind

  function KindOf(c: Call): CallKind {
    match c
    case RunPodSandbox(_, _) => RunPodSandboxKind
    case CreateContainer(_, _) => CreateContainerKind
    case StartContainer(_, _) => StartContainerKind
    case ListPodSandbox(_, _) => ListPodSandboxKind
    case ListContainers(_, _) => ListContainersKind
  }

  /** The order of calls `run_pod` is written to issue. */
  const CallOrder: seq<CallKind> :=
    [RunPodSandboxKind, CreateContainerKind, StartContainerKind, ListPodSandboxKind, ListContainersKind]

  datatype Outcome = Completed | Aborted(status: Status)

  /** The calls a stage issued, and what it hands to the next stage. */
  datatype Stage<T> = Stage(calls: seq<Call>, result: Result<T, Status>)

  // ---------------------------------------------------------------------------
  // Configuration derivation
  // ---------------------------------------------------------------------------

  const RegistryPrefix: string := "docker.io/library/"
  const LatestTag: string := ":latest"
  const SandboxUid: string := "123"
  const SandboxNamespace: string := "default"
  const SandboxHostname: string := "my_hostname"
  const SandboxLogDirectory: string := "/var/log/pods/sandbox"
  const ContainerLogPath: string := "/var/log/pods/container"

  /** The image reference the pipeline asks for: the pod's image string behind
      a fixed registry prefix and with `:latest` appended, whatever tag it
      already had. */
  function RewriteImage(image: string): (r: string)
    ensures |r| == |RegistryPrefix| + |image| + |LatestTag|
    ensures r[..|RegistryPrefix|] == RegistryPrefix
    ensures r[|RegistryPrefix|..|RegistryPrefix| + |image|] == image
    ensures r[|RegistryPrefix| + |image|..] == LatestTag
  {
    RegistryPrefix + image + LatestTag
  }

  /** The pod image a rewritten reference was made from. */
  function ImageOfReference(reference: string): (r: Option<string>)
    ensures r.Some? ==> RewriteImage(r.value) == reference
  {
    if |reference| >= |RegistryPrefix| + |LatestTag|
       && reference[..|RegistryPrefix|] == RegistryPrefix
       && reference[|reference| - |LatestTag|..] == LatestTag
    then
      var image := reference[|RegistryPrefix|..|reference| - |LatestTag|];
      assert RegistryPrefix + image + LatestTag == reference by {
        assert reference == reference[..|RegistryPrefix|] + image + reference[|reference| - |LatestTag|..];
      }
      Some(image)
    else None
  }

  /** The rewrite keeps the whole pod image: it can be read back, so two pods
      with different images never ask for the same reference. */
  lemma RewriteImageRoundTrip(image: string)
    ensures ImageOfReference(RewriteImage(image)) == Some(image)
  {
    var r := RewriteImage(image);
    assert r[|r| - |LatestTag|..] == LatestTag;
  }

  /** A tag already present in the pod is kept, and `:latest` is appended after
      it: `nginx:1.25` becomes `docker.io/library/nginx:1.25:latest`. */
  lemma RewriteKeepsExistingTag(name: string, tag: string)
    ensures RewriteImage(name + ":" + tag) == RegistryPrefix + name + ":" + tag + LatestTag
  {
  }

  /** `create_sandbox`'s configuration: named after the pod, with a fixed uid,
      namespace, hostname and log directory, and no DNS or port mappings. */
  function SandboxConfigOf(pod: Pod): (c: PodSandboxConfig)
    requires pod.metadata.name.Some?
    ensures c.metadata.Some?
    ensures c.metadata.value.name == pod.metadata.name.value
    ensures c.metadata.value.uid == SandboxUid && c.metadata.value.namespace == SandboxNamespace
    ensures c.metadata.value.attempt == 0
    ensures c.hostname == SandboxHostname
    ensures c.logDirectory == SandboxLogDirectory && c.dnsConfig.None? && c.portMappings == []
    ensures c.labels == map[] && c.annotations == map[]
  {
    PodSandboxConfig(
      metadata := Some(PodSandboxMetadata(pod.metadata.name.value, SandboxUid, SandboxNamespace, 0)),
      hostname := SandboxHostname,
      logDirectory := SandboxLogDirectory,
      dnsConfig := None,
      portMappings := [],
      labels := map[],
      annotations := map[])
  }

  /** `create_container`'s configuration, read from the first container only. */
  function ContainerConfigOf(pod: Pod): (c: ContainerConfig)
    requires ValidPod(pod)
    ensures c.metadata == Some(ContainerMetadata(FirstContainer(pod).name, 0))
    ensures c.image.Some? && ImageOfReference(c.image.value.image) == FirstContainer(pod).image
    ensures c.logPath == ContainerLogPath
  {
    RewriteImageRoundTrip(FirstContainer(pod).image.value);
    ContainerConfig(
      metadata := Some(ContainerMetadata(FirstContainer(pod).name, 0)),
      image := Some(ImageSpec(RewriteImage(FirstContainer(pod).image.value), map[])),
      command := [],
      args := [],
      workingDir := "",
      envs := [],
      mounts := [],
      labels := map[],
      annotations := map[],
      logPath := ContainerLogPath,
      stdin := false,
      stdinOnce := false,
      tty := false)
  }

  /** The sandbox configuration depends on the pod's name and nothing else. */
  lemma SandboxConfigReadsOnlyName(p1: Pod, p2: Pod)
    requires p1.metadata.name.Some? && p1.metadata.name == p2.metadata.name
    ensures SandboxConfigOf(p1) == SandboxConfigOf(p2)
  {
  }

  /** The container configuration depends on the first container and nothing
      else: any other container entries, the namespace and even the pod name
      are never read. */
  lemma ContainerConfigReadsOnlyFirst(p1: Pod, p2: Pod)
    requires ValidPod(p1) && ValidPod(p2)
    requires FirstContainer(p1) == FirstContainer(p2)
    ensures ContainerConfigOf(p1) == ContainerConfigOf(p2)
  {
  }

  // ---------------------------------------------------------------------------
  // The pipeline
  // ---------------------------------------------------------------------------

  /** `create_sandbox`: one `RunPodSandbox` call; hands on the new sandbox id
      together with the configuration that was sent. */
  function CreateSandbox(pod: Pod, rt: Runtime): (s: Stage<(string, PodSandboxConfig)>)
    requires pod.metadata.name.Some?
    ensures |s.calls| == 1 && s.calls[0].RunPodSandbox?
    ensures s.calls[0].runReq == RunPodSandboxRequest(Some(SandboxConfigOf(pod)), "")
    ensures s.calls[0].runReply == rt.runPodSandbox(s.calls[0].runReq)
    ensures s.result.Success? <==> Succeeded(s.calls[0])
    ensures s.result.Success? ==> s.result.value == (s.calls[0].runReply.value, SandboxConfigOf(pod))
    ensures s.result.Failure? ==> s.result.error == FailureOf(s.calls[0])
  {
    var config := SandboxConfigOf(pod);
    var request := RunPodSandboxRequest(Some(config), "");
    var reply := rt.runPodSandbox(request);
    Stage([RunPodSandbox(request, reply)],
      match reply
      case Success(id) => Success((id, config))
      case Failure(e) => Failure(e))
  }

  /** `create_container`: one `CreateContainer` call inside the given sandbox. */
  function CreateContainerIn(pod: Pod, sandboxId: string, sandboxConfig: PodSandboxConfig, rt: Runtime): (s: Stage<string>)
    requires ValidPod(pod)
    ensures |s.calls| == 1 && s.calls[0].CreateContainer?
    ensures s.calls[0].createReq ==
      CreateContainerRequest(sandboxId, Some(ContainerConfigOf(pod)), Some(sandboxConfig))
    ensures s.calls[0].createReply == rt.createContainer(s.calls[0].createReq)
    ensures s.result.Success? <==> Succeeded(s.calls[0])
    ensures s.result.Success? ==> s.result.value == s.calls[0].createReply.value
    ensures s.result.Failure? ==> s.result.error == FailureOf(s.calls[0])
  {
    var request := CreateContainerRequest(sandboxId, Some(ContainerConfigOf(pod)), Some(sandboxConfig));
    var reply := rt.createContainer(request);
    Stage([CreateContainer(request, reply)], reply)
  }

  /** `start_container`: one `StartContainer` call for the given container. */
  function StartContainerWith(containerId: string, rt: Runtime): (s: Stage<()>)
    ensures |s.calls| == 1 && s.calls[0].StartContainer?
    ensures s.calls[0].startReq == StartContainerRequest(containerId)
    ensures s.calls[0].startReply == rt.startContainer(s.calls[0].startReq)
    ensures s.result.Success? <==> Succeeded(s.calls[0])
    ensures s.result.Failure? ==> s.result.error == FailureOf(s.calls[0])
  {
    var request := StartContainerRequest(containerId);
    var reply := rt.startContainer(request);
    Stage([StartContainer(request, reply)], reply)
  }

  /** `fetch_status`: unfiltered sandbox listing, then unfiltered container
      listing; the listings are only logged. */
  function FetchStatus(rt: Runtime): (s: Stage<()>)
    ensures 1 <= |s.calls| <= 2 && s.calls[0].ListPodSandbox? && s.calls[0].listSandboxReq.filter.None?
    ensures s.calls[0].listSandboxReply == rt.listPodSandbox(s.calls[0].listSandboxReq)
    ensures |s.calls| == 2 <==> Succeeded(s.calls[0])
    ensures |s.calls| == 2 ==> s.calls[1].ListContainers? && s.calls[1].listContainersReq.filter.None?
    ensures |s.calls| == 2 ==> s.calls[1].listContainersReply == rt.listContainers(s.calls[1].listContainersReq)
    ensures s.result.Success? <==> Succeeded(s.calls[|s.calls| - 1]) && |s.calls| == 2
    ensures s.result.Failure? ==> s.result.error == FailureOf(s.calls[|s.calls| - 1])
  {
    var sandboxRequest := ListPodSandboxRequest(None);
    var sandboxes := rt.listPodSandbox(sandboxRequest);
    var first := ListPodSandbox(sandboxRequest, sandboxes);
    match sandboxes
    case Failure(e) => Stage([first], Failure(e))
    case Success(_) =>
      var containerRequest := ListContainersRequest(None);
      var containers := rt.listContainers(containerRequest);
      var second := ListContainers(containerRequest, containers);
      match containers
      case Failure(e) => Stage([first, second], Failure(e))
      case Success(_) => Stage([first, second], Success(()))
  }

  /** The run of the pipeline: the calls issued, and how it ended. */
  datatype Run = Run(trace: seq<Call>, outcome: Outcome)

  /** `run_pod`: sandbox, then container, then start, then the status listings. */
  function RunPod(pod: Pod, rt: Runtime): (r: Run)
    requires ValidPod(pod)
    ensures Threaded(r.trace)
    ensures forall i :: 0 <= i < |r.trace| ==> AnsweredBy(rt, r.trace[i])
    ensures |r.trace| > 3 ==> r.trace[3..] == FetchStatus(rt).calls
  {
    var sandbox := CreateSandbox(pod, rt);
    match sandbox.result
    case Failure(e) => Run(sandbox.calls, Aborted(e))
    case Success((sandboxId, sandboxConfig)) =>
      var container := CreateContainerIn(pod, sandboxId, sandboxConfig, rt);
      match container.result
      case Failure(e) => Run(sandbox.calls + container.calls, Aborted(e))
      case Success(containerId) =>
        var start := StartContainerWith(containerId, rt);
        var sofar := sandbox.calls + container.calls + start.calls;
        match start.result
        case Failure(e) => Run(sofar, Aborted(e))
        case Success(_) =>
          var status := FetchStatus(rt);
          Run(sofar + status.calls,
            match status.result
            case Failure(e) => Aborted(e)
            case Success(_) => Completed)
  }

  // ---------------------------------------------------------------------------
  // Properties of a run
  // ---------------------------------------------------------------------------

  /** The calls of a run follow the fixed order, every call but the last
      succeeded, the run aborted exactly when its last call failed (with that
      call's error), and it completed only after the whole order was issued. */
  ghost predicate Ordered(run: Run) {
    && 1 <= |run.trace| <= |CallOrder|
    && (forall i :: 0 <= i < |run.trace| ==> KindOf(run.trace[i]) == CallOrder[i])
    && (forall i :: 0 <= i < |run.trace| - 1 ==> Succeeded(run.trace[i]))
    && (run.outcome.Completed? <==> |run.trace| == |CallOrder| && Succeeded(run.trace[|run.trace| - 1]))
    && (run.outcome.Aborted? ==> !Succeeded(run.trace[|run.trace| - 1])
                                 && run.outcome.status == FailureOf(run.trace[|run.trace| - 1]))
  }

  /** Each request is built from the replies before it: the container is
      created in the sandbox the runtime returned, with the sandbox
      configuration that was sent, and the container started is the one the
      runtime created. */
  ghost predicate Threaded(trace: seq<Call>) {
    && (|trace| >= 2 && trace[0].RunPodSandbox? && trace[1].CreateContainer? && trace[0].runReply.Success? ==>
          && trace[1].createReq.podSandboxId == trace[0].runReply.value
          && trace[1].createReq.sandboxConfig == trace[0].runReq.config)
    && (|trace| >= 3 && trace[1].CreateContainer? && trace[2].StartContainer? && trace[1].createReply.Success? ==>
          trace[2].startReq.containerId == trace[1].createReply.value)
  }

  lemma RunPodOrdered(pod: Pod, rt: Runtime)
    requires ValidPod(pod)
    ensures Ordered(RunPod(pod, rt))
  {
    var run := RunPod(pod, rt);
    var sandbox := CreateSandbox(pod, rt);
    if sandbox.result.Failure? {
      assert run == Run(sandbox.calls, Aborted(sandbox.result.error));
    } else {
      var container := CreateContainerIn(pod, sandbox.result.value.0, sandbox.result.value.1, rt);
      if container.result.Failure? {
        assert run == Run(sandbox.calls + container.calls, Aborted(container.result.error));
      } else {
        var start := StartContainerWith(container.result.value, rt);
        if start.result.Failure? {
          assert run == Run(sandbox.calls + container.calls + start.calls, Aborted(start.result.error));
        } else {
          var status := FetchStatus(rt);
          var t := run.trace;
          assert t == sandbox.calls + container.calls + start.calls + status.calls;
          assert t[0] == sandbox.calls[0] && t[1] == container.calls[0] && t[2] == start.calls[0];
          assert t[3..] == status.calls;
        }
      }
    }
  }

  /** The requests carry what the pod asks for: the sandbox configuration
      derived from the pod, and a container configuration for its first container. */
  lemma RunPodRequests(pod: Pod, rt: Runtime)
    requires ValidPod(pod)
    ensures var t := RunPod(pod, rt).trace;
      && t[0].RunPodSandbox? && t[0].runReq == RunPodSandboxRequest(Some(SandboxConfigOf(pod)), "")
      && (|t| >= 2 ==> t[1].CreateContainer? && t[1].createReq.config == Some(ContainerConfigOf(pod)))
  {
  }

  /** The sandbox id is not checked: an empty id from the runtime is passed on
      to the container creation as it is. */
  lemma EmptySandboxIdPassedOn(pod: Pod, rt: Runtime)
    requires ValidPod(pod)
    requires rt.runPodSandbox(RunPodSandboxRequest(Some(SandboxConfigOf(pod)), "")) == Success("")
    ensures var t := RunPod(pod, rt).trace;
      |t| >= 2 && t[1].CreateContainer? && t[1].createReq.podSandboxId == ""
  {
  }

  /** A pod `web` with the single image `nginx`: the sandbox is named `web` in
      namespace `default`, the container asks for `docker.io/library/nginx:latest`,
      and the started container is the one the runtime created. */
  lemma WebPodScenario(rt: Runtime, sandboxId: string, containerId: string)
    requires var pod := Pod(PodMeta(Some("web"), Some("default")), Some(PodSpec([Container("web", Some("nginx"))])));
      && rt.runPodSandbox(RunPodSandboxRequest(Some(SandboxConfigOf(pod)), "")) == Success(sandboxId)
      && rt.createContainer(CreateContainerRequest(sandboxId, Some(ContainerConfigOf(pod)), Some(SandboxConfigOf(pod))))
           == Success(containerId)
    ensures var pod := Pod(PodMeta(Some("web"), Some("default")), Some(PodSpec([Container("web", Some("nginx"))])));
      var t := RunPod(pod, rt).trace;
      && |t| >= 3
      && t[0].runReq.config.value.metadata.value.name == "web"
      && t[0].runReq.config.value.metadata.value.namespace == "default"
      && t[1].createReq.podSandboxId == sandboxId
      && t[1].createReq.config.value.image.value.image == "docker.io/library/nginx:latest"
      && t[2].StartContainer? && t[2].startReq.containerId == containerId
  {
    var pod := Pod(PodMeta(Some("web"), Some("default")), Some(PodSpec([Container("web", Some("nginx"))])));
    assert CreateSandbox(pod, rt).result == Success((sandboxId, SandboxConfigOf(pod)));
    assert CreateContainerIn(pod, sandboxId, SandboxConfigOf(pod), rt).result == Success(containerId);
    assert RewriteImage("nginx") == "docker.io/library/nginx:latest";
  }
}

=== FILE: utf8.dfy ===
/**
 * UTF-8 validation and decoding as performed by Rust's `std::str::from_utf8`,
 * which accepts exactly the well-formed byte sequences of Table 3-7 of the
 * Unicode Standard (no overlong forms, no surrogates, nothing above U+10FFFF),
 * together with the matching encoder.
 */
module Utf8 {
  import opened Wrappers

  predicate IsContinuation(b: byte) {
    0x80 <= b <= 0xBF
  }

  /** The bytes `s` starts with form one well-formed UTF-8 sequence; the result
      is the scalar value it encodes and the number of bytes it occupies. */
  function DecodeFirst(s: seq<byte>): (r: Option<(char, nat)>)
    ensures r.Some? ==> 1 <= r.value.1 <= 4 && r.value.1 <= |s|
  {
    if |s| == 0 then None
    else
      var b0 := s[0] as int;
      if b0 < 0x80 then
        Some((b0 as char, 1))
      else if 0xC2 <= b0 <= 0xDF then
        if |s| >= 2 && IsContinuation(s[1]) then
          Some((((b0 - 0xC0) * 0x40 + (s[1] as int - 0x80)) as char, 2))
        else None
      else if 0xE0 <= b0 <= 0xEF then
        var lo := if b0 == 0xE0 then 0xA0 else 0x80;
        var hi := if b0 == 0xED then 0x9F else 0xBF;
        if |s| >= 3 && lo <= s[1] as int <= hi && IsContinuation(s[2]) then
          Some((((b0 - 0xE0) * 0x1000 + (s[1] as int - 0x80) * 0x40 + (s[2] as int - 0x80)) as char, 3))
        else None
      else if 0xF0 <= b0 <= 0xF4 then
        var lo := if b0 == 0xF0 then 0x90 else 0x80;
        var hi := if b0 == 0xF4 then 0x8F else 0xBF;
        if |s| >= 4 && lo <= s[1] as int <= hi && IsContinuation(s[2]) && IsContinuation(s[3]) then
          Some((((b0 - 0xF0) * 0x40000 + (s[1] as int - 0x80) * 0x1000
                 + (s[2] as int - 0x80) * 0x40 + (s[3] as int - 0x80)) as char, 4))
        else None
      else None
  }

  /** `from_utf8`: the whole byte string is a concatenation of well-formed
      sequences, or the conversion fails. Bytes it accepts are exactly the
      encoding of the text it returns, so the text stands for exactly its bytes. */
  function Decode(s: seq<byte>): (r: Option<string>)
    ensures r.Some? ==> Encode(r.value) == s
    decreases |s|
  {
    if |s| == 0 then Some("")
    else match DecodeFirst(s)
      case None => None
      case Some((c, n)) =>
        match Decode(s[n..])
        case None => None
        case Some(rest) =>
          EncodeOfDecodeStep(s, rest);
          Some([c] + rest)
  }

  /** One step of `Decode` re-encodes: the first character followed by text that
      encodes the remaining bytes encodes the whole string. */
  lemma EncodeOfDecodeStep(s: seq<byte>, rest: string)
    requires DecodeFirst(s).Some? && Encode(rest) == s[DecodeFirst(s).value.1..]
    ensures Encode([DecodeFirst(s).value.0] + rest) == s
  {
    var (c, n) := DecodeFirst(s).value;
    EncodeCharOfDecodeFirst(s);
    assert ([c] + rest)[0] == c && ([c] + rest)[1..] == rest;
    assert s[..n] + s[n..] == s;
  }

  /** The shortest UTF-8 form of one scalar value. */
  function EncodeChar(c: char): (r: seq<byte>)
    ensures 1 <= |r| <= 4
  {
    var cp := c as int;
    if cp < 0x80 then
      [cp as byte]
    else if cp < 0x800 then
      [(0xC0 + cp / 0x40) as byte, (0x80 + cp % 0x40) as byte]
    else if cp < 0x10000 then
      [(0xE0 + cp / 0x1000) as byte, (0x80 + (cp / 0x40) % 0x40) as byte, (0x80 + cp % 0x40) as byte]
    else
      [(0xF0 + cp / 0x40000) as byte, (0x80 + (cp / 0x1000) % 0x40) as byte,
       (0x80 + (cp / 0x40) % 0x40) as byte, (0x80 + cp % 0x40) as byte]
  }

  function Encode(s: string): seq<byte>
  {
    if |s| == 0 then [] else EncodeChar(s[0]) + Encode(s[1..])
  }

  /** Decoding reads back exactly the character that was encoded, and only its bytes. */
  lemma DecodeFirstOfEncodeChar(c: char, rest: seq<byte>)
    ensures DecodeFirst(EncodeChar(c) + rest) == Some((c, |EncodeChar(c)|))
  {
    var cp := c as int;
    if cp < 0x80 {
    } else if cp < 0x800 {
      DecodeTwo(c, rest);
    } else if cp < 0x10000 {
      DecodeThree(c, rest);
    } else {
      DecodeFour(c, rest);
    }
  }

  lemma DecodeTwo(c: char, rest: seq<byte>)
    requires 0x80 <= c as int < 0x800
    ensures DecodeFirst(EncodeChar(c) + rest) == Some((c, 2))
  {
    var cp := c as int;
    assert (cp / 0x40) * 0x40 + cp % 0x40 == cp;
  }

  lemma DecodeThree(c: char, rest: seq<byte>)
    requires 0x800 <= c as int < 0x10000
    ensures DecodeFirst(EncodeChar(c) + rest) == Some((c, 3))
  {
    var cp := c as int;
    var e := EncodeChar(c);
    assert (cp / 0x1000) * 0x40 + (cp / 0x40) % 0x40 == cp / 0x40;
    assert (cp / 0x40) * 0x40 + cp % 0x40 == cp;
    assert (e + rest)[..3] == e;
  }

  lemma DecodeFour(c: char, rest: seq<byte>)
    requires 0x10000 <= c as int
    ensures DecodeFirst(EncodeChar(c) + rest) == Some((c, 4))
  {
    var cp := c as int;
    var e := EncodeChar(c);
    assert (cp / 0x40000) * 0x40 + (cp / 0x1000) % 0x40 == cp / 0x1000;
    assert (cp / 0x1000) * 0x40 + (cp / 0x40) % 0x40 == cp / 0x40;
    assert (cp / 0x40) * 0x40 + cp % 0x40 == cp;
    assert (e + rest)[..4] == e;
  }

  /** Every string survives an encode/decode round trip. */
  lemma {:induction false} DecodeEncode(s: string)
    ensures Decode(Encode(s)) == Some(s)
  {
    if |s| > 0 {
      var e := EncodeChar(s[0]);
      DecodeFirstOfEncodeChar(s[0], Encode(s[1..]));
      assert (e + Encode(s[1..]))[|e|..] == Encode(s[1..]);
      DecodeEncode(s[1..]);
      assert [s[0]] + s[1..] == s;
    }
  }

  /** A successfully decoded character re-encodes to exactly the bytes it was read from. */
  lemma EncodeCharOfDecodeFirst(s: seq<byte>)
    requires DecodeFirst(s).Some?
    ensures EncodeChar(DecodeFirst(s).value.0) == s[..DecodeFirst(s).value.1]
  {
    var b0 := s[0] as int;
    if b0 < 0x80 {
    } else if b0 <= 0xDF {
      ReencodeTwo(s);
    } else if b0 <= 0xEF {
      ReencodeThree(s);
    } else {
      ReencodeFour(s);
    }
  }

  lemma ReencodeTwo(s: seq<byte>)
    requires DecodeFirst(s).Some? && 0x80 <= s[0] <= 0xDF
    ensures EncodeChar(DecodeFirst(s).value.0) == s[..DecodeFirst(s).value.1]
  {
    var b0, b1 := s[0] as int, s[1] as int;
    var (c, n) := DecodeFirst(s).value;
    assert n == 2 && c as int == (b0 - 0xC0) * 0x40 + (b1 - 0x80);
    EncodeTwo(b0, b1);
    assert s[..2] == [s[0], s[1]];
  }

  lemma ReencodeThree(s: seq<byte>)
    requires DecodeFirst(s).Some? && 0xE0 <= s[0] <= 0xEF
    ensures EncodeChar(DecodeFirst(s).value.0) == s[..DecodeFirst(s).value.1]
  {
    var b0, b1, b2 := s[0] as int, s[1] as int, s[2] as int;
    var (c, n) := DecodeFirst(s).value;
    assert n == 3 && c as int == (b0 - 0xE0) * 0x1000 + (b1 - 0x80) * 0x40 + (b2 - 0x80);
    EncodeThree(b0, b1, b2);
    assert s[..3] == [s[0], s[1], s[2]];
  }

  lemma ReencodeFour(s: seq<byte>)
    requires DecodeFirst(s).Some? && 0xF0 <= s[0]
    ensures EncodeChar(DecodeFirst(s).value.0) == s[..DecodeFirst(s).value.1]
  {
    var b0, b1, b2, b3 := s[0] as int, s[1] as int, s[2] as int, s[3] as int;
    var (c, n) := DecodeFirst(s).value;
    assert n == 4 && c as int == (b0 - 0xF0) * 0x40000 + (b1 - 0x80) * 0x1000 + (b2 - 0x80) * 0x40 + (b3 - 0x80);
    EncodeFour(b0, b1, b2, b3);
    assert s[..4] == [s[0], s[1], s[2], s[3]];
  }

  lemma EncodeTwo(b0: int, b1: int)
    requires 0xC2 <= b0 <= 0xDF && 0x80 <= b1 <= 0xBF
    ensures var cp := (b0 - 0xC0) * 0x40 + (b1 - 0x80);
      0x80 <= cp < 0x800 && 0xC0 + cp / 0x40 == b0 && 0x80 + cp % 0x40 == b1
  {
  }

  lemma EncodeThree(b0: int, b1: int, b2: int)
    requires 0xE0 <= b0 <= 0xEF && 0x80 <= b1 <= 0xBF && 0x80 <= b2 <= 0xBF
    requires b0 == 0xE0 ==> 0xA0 <= b1
    ensures var cp := (b0 - 0xE0) * 0x1000 + (b1 - 0x80) * 0x40 + (b2 - 0x80);
      0x800 <= cp < 0x10000 && 0xE0 + cp / 0x1000 == b0
      && 0x80 + (cp / 0x40) % 0x40 == b1 && 0x80 + cp % 0x40 == b2
  {
    var cp := (b0 - 0xE0) * 0x1000 + (b1 - 0x80) * 0x40 + (b2 - 0x80);
    assert cp / 0x40 == (b0 - 0xE0) * 0x40 + (b1 - 0x80);
  }

  lemma EncodeFour(b0: int, b1: int, b2: int, b3: int)
    requires 0xF0 <= b0 <= 0xF4 && 0x80 <= b1 <= 0xBF && 0x80 <= b2 <= 0xBF && 0x80 <= b3 <= 0xBF
    requires b0 == 0xF0 ==> 0x90 <= b1
    ensures var cp := (b0 - 0xF0) * 0x40000 + (b1 - 0x80) * 0x1000 + (b2 - 0x80) * 0x40 + (b3 - 0x80);
      0x10000 <= cp && 0xF0 + cp / 0x40000 == b0 && 0x80 + (cp / 0x1000) % 0x40 == b1
      && 0x80 + (cp / 0x40) % 0x40 == b2 && 0x80 + cp % 0x40 == b3
  {
    var cp := (b0 - 0xF0) * 0x40000 + (b1 - 0x80) * 0x1000 + (b2 - 0x80) * 0x40 + (b3 - 0x80);
    assert cp / 0x40 == (b0 - 0xF0) * 0x1000 + (b1 - 0x80) * 0x40 + (b2 - 0x80);
    assert cp / 0x1000 == (b0 - 0xF0) * 0x40 + (b1 - 0x80);
  }
}

=== FILE: wrappers.dfy ===
/** Failure-compatible wrapper types shared by every module of the model. */
module Wrappers {

  /** An octet: Rust's `u8`. */
  newtype byte = x: int | 0 <= x < 0x100

  /** An optional value: Rust's `Option<T>`. */
  datatype Option<+T> = None | Some(value: T)

  /** The outcome of a fallible step: Rust's `Result<T, E>`. */
  datatype Result<+T, +E> = Success(value: T) | Failure(error: E)
}
